=== FILE: README.md ===
# PagerDuty onboarding wizard — Dafny model

This project models the core of the PagerDuty / Dynatrace onboarding wizard (a
Next.js application) as pure Dafny functions, and proves properties of them:

- **Slide table** (`slides.dfy`): the constant question graph. It has three
  slides, each with options tagged `proceed`, `navigate`, `update_spreadsheet` or
  `lookup_services`.
- **Slide navigator** (`navigator.dfy`): the wizard state machine. Its state is
  the current slide, a history stack, the response map keyed `{slideId}_response`,
  the service-name overlay, the service-selector overlay and the typed name. Each
  handler is one atomic transition, returning what it hands to the host: a
  completion with the response map, or a spreadsheet request
  `{serviceName?, exists}`. `Step` delivers a user event only when the rendered
  view offers the control that raises it.
- **Directory lookup** (`directory.dfy`, `directory_queries.dfy`): the mock
  `getServices` and its four-service fixture, the case-insensitive name or
  description filter, and the API-token fallback chain.
- **Service selector** (`selector.dfy`): the picker once its fetch has resolved.
  It covers the search filter (only the blank test trims), the selection and the
  confirm button.
- **Row store** (`records.dfy`, `rowstore.dfy`): the spreadsheet route.
  - POST appends one row holding only the API name. It first creates the sheet
    and its 20-column header when the file cannot be read.
  - GET turns each later non-empty row into a record keyed by the header row.
  - Records follow JavaScript object semantics: assigning an existing key keeps
    its place, and a new key goes last.
- **Export** (`export.dfy`):
  - `convertToCSV`: an unquoted header line, then quoted fields with quotes
    doubled, as in section 2 of RFC 4180.
  - An independent reader for that format, used to state the round trip.
  - The row layout `downloadExcel` hands to the workbook writer.
- **Progress bar** (`timeline.dfy`): the step number derived from the slide id
  and the status of each step.
- **Host page** (`host.dfy`): the two optional results that decide whether the
  wizard is mounted, the "Start New Flow" reset, and the spreadsheet summary.

I/O stays outside the model. The stored workbook is an `Option<Workbook>`, absent
when the file cannot be read. The outcome of writing it is a boolean parameter. A
request body that is not valid JSON is an absent body.

Behaviours of the code worth noting:

- **History push.** The history is pushed on every accepted selection, whatever
  the option's action. So the history length counts accepted choices minus
  accepted back steps and selector cancels (`Navigator.Step`).
- **Selector cancel.** Cancelling the service selector pops the entry that the
  lookup choice pushed. The wizard therefore stays on the slide that offered the
  lookup (`Navigator.SelectorCancelStaysOnSlide`).
- **Name-box cancel.** Cancelling the service-name box keeps the history entry
  pushed by the choice that opened it, and keeps the typed text
  (`Navigator.NameCancelKeepsDuplicateEntry`).
- **Progress bar.** The ids that put the bar on step 3 are not slides of the
  table, so the bar never reaches step 3 (`Timeline.TableNeverReachesLastStep`).

## Model

| member | source | states |
|---|---|---|
| Text.Trim | src/components/slides/ServiceSelector.tsx:40 | `trim` yields an infix of the input with only whitespace cut off at both ends; it is empty exactly when the input is all whitespace, and otherwise starts and ends with a non-space |
| Text.ContainsIff | src/lib/pagerduty.ts:56-57 | `includes` holds exactly when the needle occurs at some position of the haystack |
| SlideTable.SlidesWellFormed | src/data/slides.ts:3-51 | every slide's id equals its key and it offers at least one option, with distinct values; exactly `navigate` options carry a target, and that target is a slide; the default entry slide exists |
| SlideTable.SlidesShape | src/data/slides.ts:14-36 | the table has the three slides; on the entry slide "No" navigates to the technical-service check, where "Yes" looks services up and "No" asks for a spreadsheet update |
| Directory.FilterServices | src/lib/pagerduty.ts:54-58 | the filter keeps exactly the services whose lower-cased name, or truthy lower-cased description, contains the lower-cased query |
| Directory.FilterIsSubsequence | src/lib/pagerduty.ts:54-58 | the filtered list keeps the survivors in their original order |
| Directory.FilterAppend | src/lib/pagerduty.ts:54-58 | filtering a concatenation concatenates the filtered parts |
| Directory.FilterKeepsDistinct | src/lib/pagerduty.ts:54-58 | filtering a list with distinct ids yields a list with distinct ids |
| Directory.NoDescriptionMatchesByName | src/lib/pagerduty.ts:56-57 | a service without a truthy description matches only through its name |
| Directory.GetServices | src/lib/pagerduty.ts:13-62 | an absent or empty query returns the whole fixture; any other query returns the fixture's matching services, in fixture order and without duplicate ids |
| DirectoryQueries.StagingQuery | src/lib/pagerduty.ts:17-59 | the query "staging" returns only the staging service `P2DTXQZ` |
| Directory.ResolveToken | src/lib/pagerduty.ts:104 | the token is the truthy argument, else the truthy environment value, else `mock-token`; it is never empty |
| Selector.Loaded | src/components/slides/ServiceSelector.tsx:26-28 | after loading, the whole fetched list is shown and nothing can be confirmed |
| Selector.Visible | src/components/slides/ServiceSelector.tsx:39-51 | a query that is blank after trimming shows the whole list; otherwise the list shows exactly the services matching the untrimmed query, in their order |
| Selector.SetQuery | src/components/slides/ServiceSelector.tsx:116 | typing replaces the query; the fetched list and the selection are unchanged |
| Selector.Choose | src/components/slides/ServiceSelector.tsx:53-55 | clicking a service selects it, replacing any earlier selection; the list and the query are unchanged |
| Selector.Confirm | src/components/slides/ServiceSelector.tsx:57-61 | confirm reports a service exactly when one is selected, and it is the selected one |
| Selector.ConfirmReportsLastChoice | src/components/slides/ServiceSelector.tsx:53-61 | the service confirmed is the last one clicked; typing a query does not clear the selection |
| Selector.DescriptionPrefixMatches | src/components/slides/ServiceSelector.tsx:43-48 | a service whose description starts with the query, ignoring case, is shown |
| Selector.TabNeverMatches | src/components/slides/ServiceSelector.tsx:43-48 | a service whose texts hold no tab does not match a query holding a tab, so a non-blank query with a tab hides it |
| Selector.UntrimmedQueryMatchesAsTyped | src/components/slides/ServiceSelector.tsx:40-48 | "\tapm" trims to "apm" and is not blank, yet it hides the APM service that "apm" finds |
| Selector.BlankQueryShowsAll | src/components/slides/ServiceSelector.tsx:40-41 | a whitespace-only query shows the whole list in the picker |
| Navigator.ResponseKeyInjective | src/components/slides/SlideNavigator.tsx:37 | distinct slides record their answers under distinct `{id}_response` keys |
| Navigator.Init | src/components/slides/SlideNavigator.tsx:21-29 | a new wizard sits on the given slide with empty history and answers, both overlays closed and an empty name box |
| Navigator.Render | src/components/slides/SlideNavigator.tsx:113-195 | render precedence: the slide-not-found error, then the selector, then the name box (showing the typed text), then the slide; the back button shows exactly when the history is non-empty |
| Navigator.OnOptionSelect | src/components/slides/SlideNavigator.tsx:31-74 | the current slide is pushed on every selection and the answer is recorded under its key, leaving every other answer unchanged; the slide moves only for a `navigate` option whose truthy target is a slide; the tag opens the matching overlay; the host is called exactly for `proceed`, and then with the new answers |
| Navigator.OnGoBack | src/components/slides/SlideNavigator.tsx:102-111 | with a non-empty history it pops the top entry into the current slide and changes nothing else; with an empty history it is a no-op |
| Navigator.SubmittedName | src/components/slides/SlideNavigator.tsx:79 | the reported name is absent exactly when the typed text is all whitespace; otherwise it is the trimmed text |
| Navigator.OnNameSubmit | src/components/slides/SlideNavigator.tsx:76-85 | submitting reports the submitted name with `exists: false`, then closes and clears the box without moving |
| Navigator.OnNameCancel | src/components/slides/SlideNavigator.tsx:171 | cancelling the name box closes it, keeps the typed text and does not move |
| Navigator.OnServiceSelect | src/components/slides/SlideNavigator.tsx:87-95 | confirming a service reports its name with `exists: true` and closes the selector without moving |
| Navigator.OnSelectorCancel | src/components/slides/SlideNavigator.tsx:97-100 | cancelling the selector closes it and then goes back |
| Navigator.Step | src/components/slides/SlideNavigator.tsx:113-195 | an unknown slide ignores every event; the history grows by one exactly on an accepted choice, and shrinks by one exactly on an accepted back or selector cancel; only choices, name submits and service confirms reach the host; each control the view offers goes to its handler (back only when the history is non-empty), and an event the view does not offer changes nothing |
| Navigator.InitInvariant | src/components/slides/SlideNavigator.tsx:21-29 | a wizard started on a known slide satisfies the state invariant |
| Navigator.StepPreservesInvariant | src/components/slides/SlideNavigator.tsx:31-111 | every event keeps the current slide and all history entries in the table, keeps at most one overlay open above a matching history top, and records only response keys, so the error view is never reached |
| Navigator.RunPreservesInvariant | src/components/slides/SlideNavigator.tsx:31-111 | any sequence of events keeps the invariant |
| Navigator.UnknownSlideIsTerminal | src/components/slides/SlideNavigator.tsx:113-124 | a wizard on an unknown slide shows the error and ignores every event |
| Navigator.GoBackUndoesNavigate | src/components/slides/SlideNavigator.tsx:31-111 | going back right after a `navigate` restores the slide and the history; only the recorded answer remains |
| Navigator.SelectorCancelStaysOnSlide | src/components/slides/SlideNavigator.tsx:97-100 | a lookup choice followed by a selector cancel returns to the same slide with the earlier history |
| Navigator.NameCancelKeepsDuplicateEntry | src/components/slides/SlideNavigator.tsx:171 | an update choice followed by a name-box cancel leaves the current slide pushed onto its own history and keeps the typed text |
| Navigator.EntryYesCompletes | src/components/slides/SlideNavigator.tsx:47-52 | "Yes" on the entry slide completes with exactly that one answer |
| Navigator.NoNoEmptyName | src/components/slides/SlideNavigator.tsx:76-85 | "No", "No" and an empty name report a request without a name for a non-existing service; the technical-service slide shows again with both answers recorded |
| Records.Lookup | src/lib/excel.ts:102 | reading a key, as the sheet layout and the CSV writer (line 147) do, finds a value exactly when the key is present; with distinct keys it is that entry's value |
| Records.Put | src/app/api/excel/route.ts:33 | assignment keeps the key order and appends a new key last |
| Records.PutLookup | src/app/api/excel/route.ts:33 | after an assignment the key reads as the new value and every other key reads as before |
| Records.PutKeepsDistinct | src/app/api/excel/route.ts:33 | assignment never duplicates a key |
| Records.PutNew | src/app/api/excel/route.ts:33 | assigning an absent key appends exactly one entry |
| RowStore.HeaderShape | src/app/api/excel/route.ts:69-90 | the created header has 20 columns: the first unnamed, "Api Name" in column 3, no name empty or repeated after the first |
| RowStore.NewRow | src/app/api/excel/route.ts:100-121 | the appended row is as wide as the header; it holds the truthy service name (else "") in the API-name column and "" everywhere else |
| RowStore.Opened | src/app/api/excel/route.ts:59-92 | an unreadable file becomes a new workbook holding one sheet "MSE Trace Analysis" with the header row |
| RowStore.Post | src/app/api/excel/route.ts:51-147 | POST succeeds exactly for a parsed body, a workbook with a sheet and a successful write; it then appends the new row to the first sheet and replies "Row added successfully" with name, `exists` and timestamp; every failure is a 500 with the write error |
| RowStore.PostCreatesHeader | src/app/api/excel/route.ts:62-124 | POST on an unreadable file leaves exactly the header row and the new row |
| RowStore.RecordOf | src/app/api/excel/route.ts:29-35 | a row's record has distinct keys; they are exactly the non-empty headers of the cells that hold a value |
| RowStore.RecordOfLookup | src/app/api/excel/route.ts:30-35 | each key holds the text of the last valued cell under that header |
| RowStore.NonEmptyRows | src/app/api/excel/route.ts:27 | the rows that row iteration visits: exactly the rows holding a value, in their original order |
| RowStore.Get | src/app/api/excel/route.ts:6-49 | an unreadable file is a 500 with the read error; a workbook without sheets, or whose first sheet has no rows, gives no records; otherwise the records are exactly those of the valued rows after the header, one per row, in row order |
| RowStore.GetAfterPost | src/app/api/excel/route.ts:124 | when the first sheet already has its header row, GET after a successful POST returns the earlier records followed by the new row's record |
| RowStore.NewRowRecord | src/app/api/excel/route.ts:100-121 | the new row, read back under the created header, has the service name under "Api Name", "" under every other named column and no unnamed key |
| RowStore.CreateThenGet | src/app/api/excel/route.ts:62-124 | the first POST on an unreadable file followed by GET yields exactly one record, that of the new row |
| Export.CellText | src/lib/excel.ts:147 | a present key renders as its value; a missing key renders as "undefined" |
| Export.Escape | src/lib/excel.ts:147 | escaping never shortens a value and leaves a quote-free value unchanged |
| Export.ConvertToCsv | src/lib/excel.ts:139-153 | the output is empty exactly when there are no records |
| Export.QuotedRoundTrip | src/lib/excel.ts:147 | reading a quoted field undoes the quote doubling, whatever follows it |
| Export.FieldsRoundTrip | src/lib/excel.ts:145-149 | a comma-joined line of quoted fields reads back as its values |
| Export.RowsRoundTrip | src/lib/excel.ts:143-150 | newline-joined data lines read back as their rows |
| Export.SplitJoin | src/lib/excel.ts:144 | a comma-joined header of comma-free names splits back into the names |
| Export.ConvertToCsvRoundTrip | src/lib/excel.ts:139-153 | reading an export gives the first record's keys as the header, then every record's values in header order, with "undefined" for missing keys; this holds when the first record has a key and no key holds a comma or newline |
| Export.MissingKeyRendersUndefined | src/lib/excel.ts:147 | a key a record lacks is written as the quoted text "undefined" |
| Export.DownloadLayout | src/lib/excel.ts:94-105 | no records give no rows; otherwise the first record's keys come first, then each record's cells in that key order, empty for keys it lacks |
| Export.LayoutRowReadBack | src/lib/excel.ts:101-104 | a record laid out under its own distinct, non-empty keys reads back unchanged |
| Export.DownloadThenRead | src/lib/excel.ts:94-105 | reading a downloaded sheet with the GET mapping returns the downloaded records, when all records share the first one's distinct, non-empty keys in order |
| Timeline.CurrentStep | src/components/slides/TimelineProgress.tsx:22-27 | the step is between 1 and 3: 1 for `dynatraceOnboarding` and for every id the bar does not know, 2 for `technicalServiceCheck`, and 3 exactly for `serviceSelection` and `spreadsheetUpdate` |
| Timeline.Render | src/components/slides/TimelineProgress.tsx:29-79 | three steps and two connectors; a step is done exactly before the current one and active exactly at it; a connector is done exactly when the step on its left is |
| Timeline.ExactlyOneActive | src/components/slides/TimelineProgress.tsx:42-56 | exactly one step is active, and the done steps form a prefix |
| Timeline.DependsOnlyOnSlide | src/components/slides/TimelineProgress.tsx:11-30 | the completed-slide list and the responses do not affect the bar |
| Timeline.TableNeverReachesLastStep | src/components/slides/TimelineProgress.tsx:25 | for every slide of the table the bar shows step 1 or 2 |
| Host.Start | src/app/page.tsx:7-14 | first load shows the wizard on the entry slide with no back button |
| Host.HandleComplete | src/app/page.tsx:16-19 | the completion callback stores the data and hides the wizard |
| Host.HandleSpreadsheetUpdate | src/app/page.tsx:21-24 | the spreadsheet callback stores the request and hides the wizard |
| Host.ResetFlow | src/app/page.tsx:26-29 | reset clears both results and mounts a fresh wizard |
| Host.PageStep | src/app/page.tsx:102-107 | wizard events reach the wizard only while it is shown, and its emissions go to the matching callback; "Start New Flow" acts only while a result is shown |
| Host.PageStepPreservesInvariant | src/app/page.tsx:41-107 | every page event keeps at most one result shown, and a shown wizard satisfying the navigator invariant (slides from the table, at most one overlay open, only response keys in the data) |
| Host.NeverBothResults | src/app/page.tsx:41-107 | whatever the user does, the completion and spreadsheet results are never shown together |
| Host.EmissionEndsSession | src/app/page.tsx:102-107 | any call from the wizard to the host unmounts the wizard |
| Host.SpreadsheetSummary | src/app/page.tsx:78-90 | the summary shows "Service Exists: Yes/No", then the name line only for a truthy name |
| Host.EmptyNameSummary | src/app/page.tsx:69-90 | "No", "No" and an empty name give the summary "Service Exists: No" alone, with the wizard gone |

## Left out

- Rendering, styling and `SlideComponent`: they are presentation only. The model
  keeps the view's shape (`Navigator.View`) and which controls it offers.
- The xlsx codec (`readFile`, `writeFile`, `writeBuffer`): a workbook is a list of
  sheets of optional cell texts. A file that exists but cannot be parsed is
  treated like a missing file. That matches the route's single `catch`.
- Row iteration by ExcelJS is modelled as skipping rows and cells without a value.
  Number, date and formula cells are not modelled; every value is its text.
- `readExcel`, `writeToExcel`, `updateRow`, `addNewRow` and `createExcelService`
  in `src/lib/excel.ts`: they are fetch wrappers, logging stubs and a
  constructor, with no logic of their own.
- The Blob and link download at the end of `downloadExcel`, and all console
  logging: these are side effects with no state.
- The selector's asynchronous fetch, with its loading and error views: the model
  starts from the resolved list (`Selector.Loaded`). The mock never fails, so the
  `catch` in `getServices` cannot be reached.
- The commented-out live PagerDuty client: it is not part of the running code.
- The fetch and filter effects (`useEffect`) and React's batching of state updates: each handler
  is one atomic transition. The state updates in the source compose in the same
  order within one event.
- Optional callbacks: the host always supplies both, so the navigator always
  emits.
- The completion summary's listing of `Object.entries`: it only displays the map
  the wizard emitted.
- Response values that are numbers or booleans: the wizard records only option
  value strings.
- Text.Trim: removes only the six ASCII whitespace characters, not the Unicode
  spaces JavaScript's `trim` also removes.
- Text.ToLower: folds ASCII letters only, not the full Unicode case mapping.
- Records.Put: does not model JavaScript's ordering of integer-like keys ahead of
  the others, nor keys inherited from `Object.prototype`.
- Navigator.OnOptionSelect: requires the current slide to be in the table. The
  source reads `currentSlide.id` there and would throw otherwise, but the error
  view offers no options.
- RowStore.Post: a failed `writeFile` is modelled as leaving the stored file as
  it was. The route promises nothing about a partly written file, and the model
  does not cover one.
- The worksheet lookup `getWorksheet(1)` finds a sheet by its id. The model takes
  the first sheet in the workbook's list. The two agree unless sheets have been
  deleted or reordered.
- Navigator.Render: a slide lookup by a key inherited from `Object.prototype`
  (such as `constructor`) is treated as not found.

=== FILE: base.dfy ===
/** Shared value types and a sequence predicate. `Option` stands for a TypeScript optional (`T | undefined`). */
module Base {

  datatype Option<+T> = None | Some(value: T) {

    /** The value, or `default` when absent (JavaScript `x ?? default`). */
    function GetOr(default: T): (r: T)
      ensures Some? ==> r == value
      ensures None? ==> r == default
    {
      match this
      case Some(v) => v
      case None => default
    }
  }

  /** JavaScript truthiness of an optional string: present and non-empty. */
  predicate Truthy(s: Option<string>) {
    s.Some? && s.value != ""
  }

  /** `a` is `b` with some elements dropped and the rest kept in order. */
  ghost predicate IsSubsequence<T>(a: seq<T>, b: seq<T>)
    decreases |b|
  {
    if |a| == 0 then true
    else if |b| == 0 then false
    else (a[0] == b[0] && IsSubsequence(a[1..], b[1..])) || IsSubsequence(a, b[1..])
  }

  /** Every sequence is a subsequence of itself. */
  lemma {:induction false} IsSubsequenceRefl<T>(s: seq<T>)
    ensures IsSubsequence(s, s)
    decreases |s|
  {
    if |s| > 0 {
      IsSubsequenceRefl(s[1..]);
    }
  }
}

=== FILE: directory.dfy ===
/**
 * The directory lookup of `src/lib/pagerduty.ts`: the fixture-backed
 * `getServices` with its case-insensitive query filter, and the token
 * fallback of `createPagerDutyService`.
 */
module Directory {
  import opened Base
  import opened Text

  /** One directory entity (a PagerDuty service record). */
  datatype Service = Service(
    id: string,
    name: string,
    description: Option<string>,
    status: string,
    createdAt: string,
    updatedAt: string)

  /** The four services the mock lookup returns, in declaration order. */
  const Fixture: seq<Service> := [
    Service("P1DTXQY", "Dynatrace Production Service",
      Some("Production monitoring service for Dynatrace"), "active",
      "2024-01-15T10:30:00Z", "2024-01-20T14:45:00Z"),
    Service("P2DTXQZ", "Dynatrace Staging Service",
      Some("Staging environment monitoring service"), "active",
      "2024-01-16T09:15:00Z", "2024-01-18T11:20:00Z"),
    Service("P3DTXQA", "Application Performance Monitoring",
      Some("APM service for application monitoring"), "active",
      "2024-01-10T08:00:00Z", "2024-01-25T16:30:00Z"),
    Service("P4DTXQB", "Infrastructure Monitoring",
      Some("Infrastructure monitoring and alerting"), "active",
      "2024-01-12T12:45:00Z", "2024-01-22T10:15:00Z")
  ]

  /**
   * The filter predicate shared by the lookup and the selector: the lower-cased
   * name contains the lower-cased query, or the description is truthy and its
   * lower-cased text contains it.
   */
  predicate Matches(svc: Service, query: string) {
    || Contains(ToLower(svc.name), ToLower(query))
    || (Truthy(svc.description) && Contains(ToLower(svc.description.value), ToLower(query)))
  }

  /** `services.filter(s => Matches(s, query))`. */
  function FilterServices(services: seq<Service>, query: string): (r: seq<Service>)
    ensures |r| <= |services|
    ensures forall x | x in r :: x in services && Matches(x, query)
    ensures forall x | x in services && Matches(x, query) :: x in r
  {
    if |services| == 0 then []
    else
      var rest := FilterServices(services[1..], query);
      if Matches(services[0], query) then [services[0]] + rest else rest
  }

  /** Filtering keeps the survivors in their original relative order. */
  lemma {:induction false} FilterIsSubsequence(services: seq<Service>, query: string)
    ensures IsSubsequence(FilterServices(services, query), services)
    decreases |services|
  {
    if |services| > 0 {
      FilterIsSubsequence(services[1..], query);
      var rest := FilterServices(services[1..], query);
      if Matches(services[0], query) {
        assert ([services[0]] + rest)[1..] == rest;
      } else if |rest| > 0 {
        assert IsSubsequence(rest, services[1..]);
      }
    }
  }

  /** Filtering distributes over concatenation, so it is order preserving. */
  lemma {:induction false} FilterAppend(a: seq<Service>, b: seq<Service>, query: string)
    ensures FilterServices(a + b, query) == FilterServices(a, query) + FilterServices(b, query)
    decreases |a|
  {
    if |a| > 0 {
      assert (a + b)[1..] == a[1..] + b;
      FilterAppend(a[1..], b, query);
    } else {
      assert a + b == b;
    }
  }

  /** The `id` fields of a list are pairwise distinct. */
  predicate DistinctIds(services: seq<Service>) {
    forall i, j | 0 <= i < j < |services| :: services[i].id != services[j].id
  }

  /** Filtering a duplicate-free list yields a duplicate-free list. */
  lemma {:induction false} FilterKeepsDistinct(services: seq<Service>, query: string)
    requires DistinctIds(services)
    ensures DistinctIds(FilterServices(services, query))
    decreases |services|
  {
    if |services| > 0 {
      FilterKeepsDistinct(services[1..], query);
      var rest := FilterServices(services[1..], query);
      if Matches(services[0], query) {
        forall x | x in rest ensures x.id != services[0].id {
          var j :| 0 <= j < |services[1..]| && services[1..][j] == x;
          assert services[j + 1] == x;
        }
        var r := [services[0]] + rest;
        forall i, j | 0 <= i < j < |r| ensures r[i].id != r[j].id {
          if i > 0 {
            assert r[i] == rest[i - 1] && r[j] == rest[j - 1];
          } else {
            assert r[j] in rest;
          }
        }
      }
    }
  }

  /** A service without a truthy description can match only through its name. */
  lemma NoDescriptionMatchesByName(svc: Service, query: string)
    requires !Truthy(svc.description)
    ensures Matches(svc, query) <==> Contains(ToLower(svc.name), ToLower(query))
  {
  }

  /**
   * `getServices(query)` on the mock: an absent or empty query returns the whole
   * fixture; any other query, whitespace included, filters it.
   */
  function GetServices(query: Option<string>): (r: seq<Service>)
    ensures !Truthy(query) ==> r == Fixture
    ensures forall x :: x in r <==> x in Fixture && (!Truthy(query) || Matches(x, query.value))
    ensures IsSubsequence(r, Fixture)
    ensures DistinctIds(r)
  {
    FixtureDistinct();
    if Truthy(query) then
      FilterIsSubsequence(Fixture, query.value);
      FilterKeepsDistinct(Fixture, query.value);
      FilterServices(Fixture, query.value)
    else
      IsSubsequenceRefl(Fixture);
      Fixture
  }

  lemma FixtureDistinct()
    ensures DistinctIds(Fixture)
  {
  }

  /** Words each lacking 's' or 'g' (in either case). */
  predicate LackSOrG(words: seq<string>) {
    forall i | 0 <= i < |words| ::
      ('s' !in words[i] && 'S' !in words[i]) || ('g' !in words[i] && 'G' !in words[i])
  }

  /** Text made of such words, joined by spaces, cannot include "staging" once lower-cased. */
  lemma WordsLackStaging(words: seq<string>)
    requires LackSOrG(words)
    ensures !Contains(ToLower(Join(words, " ")), "staging")
  {
    forall i | 0 <= i < |words| ensures !Contains(ToLower(words[i]), "staging") {
      if 's' !in words[i] && 'S' !in words[i] {
        LowerLacks(words[i], 's');
        ContainsHasChar(ToLower(words[i]), "staging", 's');
      } else {
        LowerLacks(words[i], 'g');
        ContainsHasChar(ToLower(words[i]), "staging", 'g');
      }
    }
    LowerJoinLacks(words, "staging");
  }

  /** A service whose name and description are such texts does not match "staging". */
  lemma ServiceLacksStaging(svc: Service, q: string, nameWords: seq<string>, descriptionWords: seq<string>)
    requires q == "staging"
    requires svc.name == Join(nameWords, " ") && LackSOrG(nameWords)
    requires svc.description == Some(Join(descriptionWords, " ")) && LackSOrG(descriptionWords)
    ensures !Matches(svc, q)
  {
    assert ToLower(q) == q;
    WordsLackStaging(nameWords);
    WordsLackStaging(descriptionWords);
  }

  /** A name that has "Staging" inside it matches "staging". */
  lemma ServiceHasStaging(svc: Service, q: string, before: string, after: string)
    requires q == "staging"
    requires svc.name == before + "Staging" + after
    ensures Matches(svc, q)
  {
    assert ToLower("Staging") == q;
    ToLowerAppend(before, "Staging");
    ToLowerAppend(before + "Staging", after);
    var lowered := ToLower(svc.name);
    assert lowered == ToLower(before) + q + ToLower(after);
    assert lowered[|before|..|before| + 7] == q;
    assert OccursAt(lowered, q, |before|);
    ContainsIff(lowered, q);
    assert ToLower(q) == q;
  }

  /**
   * `createPagerDutyService`'s token: the explicit argument if truthy, else the
   * environment value if truthy, else the literal `'mock-token'`; never empty.
   */
  function ResolveToken(argument: Option<string>, environment: Option<string>): (r: string)
    ensures r != ""
    ensures Truthy(argument) ==> r == argument.value
    ensures !Truthy(argument) && Truthy(environment) ==> r == environment.value
    ensures !Truthy(argument) && !Truthy(environment) ==> r == "mock-token"
  {
    if Truthy(argument) then argument.value
    else if Truthy(environment) then environment.value
    else "mock-token"
  }
}

=== FILE: directory_queries.dfy ===
/** Concrete queries against the mock directory's four-entry fixture. */
module DirectoryQueries {
  import opened Base
  import opened Text
  import opened Directory

  /** Which fixture entries match "staging": only the second. */
  lemma StagingVerdicts()
    ensures !Matches(Fixture[0], "staging") && Matches(Fixture[1], "staging")
    ensures !Matches(Fixture[2], "staging") && !Matches(Fixture[3], "staging")
  {
    StagingVerdict0();
    StagingVerdict1();
    StagingVerdict2();
    StagingVerdict3();
  }

  // The fixture's texts.

  lemma Texts0()
    ensures Fixture[0].name == "Dynatrace Production Service"
    ensures Fixture[0].description == Some("Production monitoring service for Dynatrace")
  {
  }

  lemma Texts2()
    ensures Fixture[2].name == "Application Performance Monitoring"
    ensures Fixture[2].description == Some("APM service for application monitoring")
  {
  }

  lemma Texts3()
    ensures Fixture[3].name == "Infrastructure Monitoring"
    ensures Fixture[3].description == Some("Infrastructure monitoring and alerting")
  {
  }

  // Each text as its words joined by single spaces: first how the text splits at
  // each space, then how the join unfolds.

  lemma JoinCons(w: string, ws: seq<string>)
    requires |ws| > 0
    ensures Join([w] + ws, " ") == w + " " + Join(ws, " ")
  {
  }

  lemma Spaces0Name0()
    ensures "Dynatrace Production Service" == "Dynatrace" + " " + "Production Service"
  {
  }

  lemma Spaces0Name1()
    ensures "Production Service" == "Production" + " " + "Service"
  {
  }

  lemma Split0Name()
    ensures Join(["Dynatrace", "Production", "Service"], " ") == "Dynatrace Production Service"
  {
    Spaces0Name0();
    Spaces0Name1();
    assert ["Dynatrace", "Production", "Service"] == ["Dynatrace"] + ["Production", "Service"];
    JoinCons("Dynatrace", ["Production", "Service"]);
    assert ["Production", "Service"] == ["Production"] + ["Service"];
    JoinCons("Production", ["Service"]);
  }

  lemma Spaces0Description0()
    ensures "Production monitoring service for Dynatrace" == "Production" + " " + "monitoring service for Dynatrace"
  {
  }

  lemma Spaces0Description1()
    ensures "monitoring service for Dynatrace" == "monitoring" + " " + "service for Dynatrace"
  {
  }

  lemma Spaces0Description2()
    ensures "service for Dynatrace" == "service" + " " + "for Dynatrace"
  {
  }

  lemma Spaces0Description3()
    ensures "for Dynatrace" == "for" + " " + "Dynatrace"
  {
  }

  lemma Split0Description()
    ensures Join(["Production", "monitoring", "service", "for", "Dynatrace"], " ") == "Production monitoring service for Dynatrace"
  {
    Spaces0Description0();
    Spaces0Description1();
    Spaces0Description2();
    Spaces0Description3();
    assert ["Production", "monitoring", "service", "for", "Dynatrace"] == ["Production"] + ["monitoring", "service", "for", "Dynatrace"];
    JoinCons("Production", ["monitoring", "service", "for", "Dynatrace"]);
    assert ["monitoring", "service", "for", "Dynatrace"] == ["monitoring"] + ["service", "for", "Dynatrace"];
    JoinCons("monitoring", ["service", "for", "Dynatrace"]);
    assert ["service", "for", "Dynatrace"] == ["service"] + ["for", "Dynatrace"];
    JoinCons("service", ["for", "Dynatrace"]);
    assert ["for", "Dynatrace"] == ["for"] + ["Dynatrace"];
    JoinCons("for", ["Dynatrace"]);
  }

  lemma Spaces2Name0()
    ensures "Application Performance Monitoring" == "Application" + " " + "Performance Monitoring"
  {
  }

  lemma Spaces2Name1()
    ensures "Performance Monitoring" == "Performance" + " " + "Monitoring"
  {
  }

  lemma Split2Name()
    ensures Join(["Application", "Performance", "Monitoring"], " ") == "Application Performance Monitoring"
  {
    Spaces2Name0();
    Spaces2Name1();
    assert ["Application", "Performance", "Monitoring"] == ["Application"] + ["Performance", "Monitoring"];
    JoinCons("Application", ["Performance", "Monitoring"]);
    assert ["Performance", "Monitoring"] == ["Performance"] + ["Monitoring"];
    JoinCons("Performance", ["Monitoring"]);
  }

  lemma Spaces2Description0()
    ensures "APM service for application monitoring" == "APM" + " " + "service for application monitoring"
  {
  }

  lemma Spaces2Description1()
    ensures "service for application monitoring" == "service" + " " + "for application monitoring"
  {
  }

  lemma Spaces2Description2()
    ensures "for application monitoring" == "for" + " " + "application monitoring"
  {
  }

  lemma Spaces2Description3()
    ensures "application monitoring" == "application" + " " + "monitoring"
  {
  }

  lemma Split2Description()
    ensures Join(["APM", "service", "for", "application", "monitoring"], " ") == "APM service for application monitoring"
  {
    Spaces2Description0();
    Spaces2Description1();
    Spaces2Description2();
    Spaces2Description3();
    assert ["APM", "service", "for", "application", "monitoring"] == ["APM"] + ["service", "for", "application", "monitoring"];
    JoinCons("APM", ["service", "for", "application", "monitoring"]);
    assert ["service", "for", "application", "monitoring"] == ["service"] + ["for", "application", "monitoring"];
    JoinCons("service", ["for", "application", "monitoring"]);
    assert ["for", "application", "monitoring"] == ["for"] + ["application", "monitoring"];
    JoinCons("for", ["application", "monitoring"]);
    assert ["application", "monitoring"] == ["application"] + ["monitoring"];
    JoinCons("application", ["monitoring"]);
  }

  lemma Spaces3Name0()
    ensures "Infrastructure Monitoring" == "Infrastructure" + " " + "Monitoring"
  {
  }

  lemma Split3Name()
    ensures Join(["Infrastructure", "Monitoring"], " ") == "Infrastructure Monitoring"
  {
    Spaces3Name0();
    assert ["Infrastructure", "Monitoring"] == ["Infrastructure"] + ["Monitoring"];
    JoinCons("Infrastructure", ["Monitoring"]);
  }

  lemma Spaces3Description0()
    ensures "Infrastructure monitoring and alerting" == "Infrastructure" + " " + "monitoring and alerting"
  {
  }

  lemma Spaces3Description1()
    ensures "monitoring and alerting" == "monitoring" + " " + "and alerting"
  {
  }

  lemma Spaces3Description2()
    ensures "and alerting" == "and" + " " + "alerting"
  {
  }

  lemma Split3Description()
    ensures Join(["Infrastructure", "monitoring", "and", "alerting"], " ") == "Infrastructure monitoring and alerting"
  {
    Spaces3Description0();
    Spaces3Description1();
    Spaces3Description2();
    assert ["Infrastructure", "monitoring", "and", "alerting"] == ["Infrastructure"] + ["monitoring", "and", "alerting"];
    JoinCons("Infrastructure", ["monitoring", "and", "alerting"]);
    assert ["monitoring", "and", "alerting"] == ["monitoring"] + ["and", "alerting"];
    JoinCons("monitoring", ["and", "alerting"]);
    assert ["and", "alerting"] == ["and"] + ["alerting"];
    JoinCons("and", ["alerting"]);
  }

  // Every word lacks 's' or 'g' in both cases.

  lemma Lack0()
    ensures LackSOrG(["Dynatrace", "Production", "Service"])
    ensures LackSOrG(["Production", "monitoring", "service", "for", "Dynatrace"])
  {
    Lack0Name();
    Lack0Description();
  }

  lemma Lack0Name()
    ensures LackSOrG(["Dynatrace", "Production", "Service"])
  {
  }

  lemma Lack0Description()
    ensures LackSOrG(["Production", "monitoring", "service", "for", "Dynatrace"])
  {
  }

  lemma Lack2()
    ensures LackSOrG(["Application", "Performance", "Monitoring"])
    ensures LackSOrG(["APM", "service", "for", "application", "monitoring"])
  {
    Lack2Name();
    Lack2Description();
  }

  lemma Lack2Name()
    ensures LackSOrG(["Application", "Performance", "Monitoring"])
  {
  }

  lemma Lack2Description()
    ensures LackSOrG(["APM", "service", "for", "application", "monitoring"])
  {
  }

  lemma Lack3()
    ensures LackSOrG(["Infrastructure", "Monitoring"])
    ensures LackSOrG(["Infrastructure", "monitoring", "and", "alerting"])
  {
    Lack3Name();
    Lack3Description();
  }

  lemma Lack3Name()
    ensures LackSOrG(["Infrastructure", "Monitoring"])
  {
  }

  lemma Lack3Description()
    ensures LackSOrG(["Infrastructure", "monitoring", "and", "alerting"])
  {
  }

  lemma StagingVerdict0()
    ensures !Matches(Fixture[0], "staging")
  {
    Texts0();
    Split0Name();
    Split0Description();
    Lack0();
    ServiceLacksStaging(Fixture[0], "staging", ["Dynatrace", "Production", "Service"],
      ["Production", "monitoring", "service", "for", "Dynatrace"]);
  }

  lemma StagingVerdict1()
    ensures Matches(Fixture[1], "staging")
  {
    assert Fixture[1].name == "Dynatrace " + "Staging" + " Service";
    ServiceHasStaging(Fixture[1], "staging", "Dynatrace ", " Service");
  }

  lemma StagingVerdict2()
    ensures !Matches(Fixture[2], "staging")
  {
    Texts2();
    Split2Name();
    Split2Description();
    Lack2();
    ServiceLacksStaging(Fixture[2], "staging", ["Application", "Performance", "Monitoring"],
      ["APM", "service", "for", "application", "monitoring"]);
  }

  lemma StagingVerdict3()
    ensures !Matches(Fixture[3], "staging")
  {
    Texts3();
    Split3Name();
    Split3Description();
    Lack3();
    ServiceLacksStaging(Fixture[3], "staging", ["Infrastructure", "Monitoring"],
      ["Infrastructure", "monitoring", "and", "alerting"]);
  }

  /** The query "staging" selects exactly the staging service, id P2DTXQZ. */
  lemma StagingQuery()
    ensures GetServices(Some("staging")) == [Fixture[1]]
    ensures GetServices(Some("staging"))[0].id == "P2DTXQZ"
  {
    StagingQueryFor("staging");
  }

  lemma StagingQueryFor(q: string)
    requires q == "staging"
    ensures GetServices(Some(q)) == [Fixture[1]]
    ensures GetServices(Some(q))[0].id == "P2DTXQZ"
  {
    StagingFilter(q);
    SecondId();
  }

  lemma StagingFilter(q: string)
    requires q == "staging"
    ensures FilterServices(Fixture, q) == [Fixture[1]]
  {
    StagingVerdicts();
    OnlySecondKept(Fixture, q);
  }

  lemma SecondId()
    ensures Fixture[1].id == "P2DTXQZ"
  {
  }

  /** Filtering four services of which only the second matches keeps just that one. */
  lemma OnlySecondKept(s: seq<Service>, q: string)
    requires |s| == 4
    requires !Matches(s[0], q) && Matches(s[1], q) && !Matches(s[2], q) && !Matches(s[3], q)
    ensures FilterServices(s, q) == [s[1]]
  {
    assert s[3..][1..] == [];
    assert FilterServices(s[3..], q) == [];
    assert s[2..][1..] == s[3..];
    assert FilterServices(s[2..], q) == [];
    assert s[1..][1..] == s[2..];
    assert FilterServices(s[1..], q) == [s[1]];
  }
}

=== FILE: export.dfy ===
/**
 * The export helpers of `src/lib/excel.ts`: `convertToCSV`, which writes the
 * first record's keys as an unquoted header line and every record as a line of
 * quoted fields with embedded quotes doubled (the escaping rule of section 2 of
 * RFC 4180), and the row layout `downloadExcel` hands to the workbook writer.
 */
module Export {
  import opened Base
  import opened Text
  import opened Records
  import opened RowStore

  /** `String(row[header])`: the value, or "undefined" when the record lacks the key. */
  function CellText(rec: Record, key: string): (t: string)
    ensures key in Keys(rec) ==> Lookup(rec, key) == Some(t)
    ensures key !in Keys(rec) ==> t == "undefined"
  {
    Lookup(rec, key).GetOr("undefined")
  }

  /** Replace every quote character with two. */
  function Escape(v: string): (e: string)
    ensures |e| >= |v|
    ensures '"' !in v ==> e == v
  {
    if |v| == 0 then ""
    else (if v[0] == '"' then "\"\"" else [v[0]]) + Escape(v[1..])
  }

  /** One data field: the escaped value between quotes. */
  function Field(v: string): (f: string)
    ensures |f| >= 2 && f[0] == '"' && f[|f| - 1] == '"'
  {
    "\"" + Escape(v) + "\""
  }

  function Fields(vs: seq<string>): (fs: seq<string>)
    ensures |fs| == |vs|
    ensures forall j | 0 <= j < |vs| :: fs[j] == Field(vs[j])
  {
    seq(|vs|, j requires 0 <= j < |vs| => Field(vs[j]))
  }

  lemma FieldsTail(vs: seq<string>)
    requires |vs| > 0
    ensures Fields(vs)[1..] == Fields(vs[1..])
  {
  }

  /** The values one record contributes, in header order, whatever its own keys. */
  function RowValues(keys: seq<string>, rec: Record): (vs: seq<string>)
    ensures |vs| == |keys|
    ensures forall j | 0 <= j < |keys| :: vs[j] == CellText(rec, keys[j])
  {
    seq(|keys|, j requires 0 <= j < |keys| => CellText(rec, keys[j]))
  }

  function DataLines(keys: seq<string>, data: seq<Record>): (ls: seq<string>)
    ensures |ls| == |data|
  {
    seq(|data|, i requires 0 <= i < |data| => Join(Fields(RowValues(keys, data[i])), ","))
  }

  /** `convertToCSV`: empty for no records; otherwise a header line and one line per record, newline separated. */
  function ConvertToCsv(data: seq<Record>): (csv: string)
    ensures csv == "" <==> |data| == 0
  {
    if |data| == 0 then ""
    else
      var keys := Keys(data[0]);
      var lines := DataLines(keys, data);
      assert |[Join(keys, ",")] + lines| >= 2;
      Join([Join(keys, ",")] + lines, "\n")
  }

  // An independent reader for the format written above.

  /**
   * Read a quoted field's contents, starting just after its opening quote: a
   * doubled quote stands for one quote, a single quote closes the field.
   * Returns the value and what follows the closing quote.
   */
  function ParseQuoted(s: string): (r: Option<(string, string)>)
    ensures r.Some? ==> |r.value.1| < |s|
  {
    if |s| == 0 then None
    else if s[0] == '"' then
      if |s| >= 2 && s[1] == '"' then
        match ParseQuoted(s[2..])
        case None => None
        case Some((v, rest)) => Some(("\"" + v, rest))
      else Some(("", s[1..]))
    else
      match ParseQuoted(s[1..])
      case None => None
      case Some((v, rest)) => Some(([s[0]] + v, rest))
  }

  /** Read one line of comma-separated quoted fields; returns them and the unread rest. */
  function ParseFields(s: string): (r: Option<(seq<string>, string)>)
    ensures r.Some? ==> |r.value.0| > 0 && |r.value.1| < |s|
    decreases |s|
  {
    if |s| == 0 || s[0] != '"' then None
    else
      match ParseQuoted(s[1..])
      case None => None
      case Some((v, rest)) =>
        if |rest| > 0 && rest[0] == ',' then
          match ParseFields(rest[1..])
          case None => None
          case Some((vs, r)) => Some(([v] + vs, r))
        else Some(([v], rest))
  }

  /** Read newline-separated lines of quoted fields up to the end of the input. */
  function ParseRows(s: string): (r: Option<seq<seq<string>>>)
    ensures r.Some? ==> |r.value| > 0
    decreases |s|
  {
    match ParseFields(s)
    case None => None
    case Some((fields, rest)) =>
      if rest == "" then Some([fields])
      else if rest[0] == '\n' then
        match ParseRows(rest[1..])
        case None => None
        case Some(rows) => Some([fields] + rows)
      else None
  }

  /** Split at every occurrence of `sep`. */
  function Split(s: string, sep: char): (parts: seq<string>)
    ensures |parts| > 0
  {
    if |s| == 0 then [""]
    else
      var rest := Split(s[1..], sep);
      if s[0] == sep then [""] + rest else [[s[0]] + rest[0]] + rest[1..]
  }

  /** Position of the first newline, if any. */
  function FirstNewline(s: string): (r: Option<nat>)
    ensures r.Some? ==> r.value < |s| && s[r.value] == '\n' && '\n' !in s[..r.value]
    ensures r.None? ==> '\n' !in s
  {
    if |s| == 0 then None
    else if s[0] == '\n' then Some(0)
    else
      match FirstNewline(s[1..])
      case None => None
      case Some(i) =>
        assert s[..i + 1] == [s[0]] + s[1..][..i];
        Some(i + 1)
  }

  /** Read a whole export: the header names from the first line, then the quoted data rows. */
  function ParseCsv(s: string): (r: Option<(seq<string>, seq<seq<string>>)>)
  {
    match FirstNewline(s)
    case None => None
    case Some(i) =>
      match ParseRows(s[i + 1..])
      case None => None
      case Some(rows) => Some((Split(s[..i], ','), rows))
  }

  /** The quoted-field reader undoes escaping, whatever follows the field unless it starts with a quote. */
  lemma {:induction false} QuotedRoundTrip(v: string, t: string)
    requires t == "" || t[0] != '"'
    ensures ParseQuoted(Escape(v) + "\"" + t) == Some((v, t))
    decreases |v|
  {
    if |v| == 0 {
      ReadClosingQuote(t);
      assert Escape(v) + "\"" + t == "\"" + t;
    } else {
      QuotedRoundTrip(v[1..], t);
      QuotedStep(v, t);
    }
  }

  /** The first character of a value, escaped, is read back in front of the rest. */
  lemma QuotedStep(v: string, t: string)
    requires |v| > 0
    requires ParseQuoted(Escape(v[1..]) + "\"" + t) == Some((v[1..], t))
    ensures ParseQuoted(Escape(v) + "\"" + t) == Some((v, t))
  {
    if v[0] == '"' {
      QuoteStep(v, t);
    } else {
      PlainStep(v, t);
    }
  }

  lemma QuoteStep(v: string, t: string)
    requires |v| > 0 && v[0] == '"'
    requires ParseQuoted(Escape(v[1..]) + "\"" + t) == Some((v[1..], t))
    ensures ParseQuoted(Escape(v) + "\"" + t) == Some((v, t))
  {
    var tail := Escape(v[1..]) + "\"" + t;
    EscapeCons(v);
    assert Escape(v) + "\"" + t == "\"\"" + tail;
    ReadDoubledQuote(tail);
    assert "\"" + v[1..] == v;
  }

  lemma PlainStep(v: string, t: string)
    requires |v| > 0 && v[0] != '"'
    requires ParseQuoted(Escape(v[1..]) + "\"" + t) == Some((v[1..], t))
    ensures ParseQuoted(Escape(v) + "\"" + t) == Some((v, t))
  {
    var tail := Escape(v[1..]) + "\"" + t;
    EscapeCons(v);
    assert Escape(v) + "\"" + t == [v[0]] + tail;
    ReadPlainChar(v[0], tail);
    assert [v[0]] + v[1..] == v;
  }

  lemma EscapeCons(v: string)
    requires |v| > 0
    ensures Escape(v) == (if v[0] == '"' then "\"\"" else [v[0]]) + Escape(v[1..])
  {
  }

  /** A quote not followed by another closes the field. */
  lemma ReadClosingQuote(t: string)
    requires t == "" || t[0] != '"'
    ensures ParseQuoted("\"" + t) == Some(("", t))
  {
    assert ("\"" + t)[1..] == t;
  }

  /** A doubled quote reads as one quote. */
  lemma ReadDoubledQuote(tail: string)
    ensures ParseQuoted("\"\"" + tail)
      == match ParseQuoted(tail)
         case None => None
         case Some((w, rest)) => Some(("\"" + w, rest))
  {
    assert ("\"\"" + tail)[2..] == tail;
  }

  /** Any other character reads as itself. */
  lemma ReadPlainChar(c: char, tail: string)
    requires c != '"'
    ensures ParseQuoted([c] + tail)
      == match ParseQuoted(tail)
         case None => None
         case Some((w, rest)) => Some(([c] + w, rest))
  {
    assert ([c] + tail)[1..] == tail;
  }

  /** The last field of a line: read back, stopping at what follows. */
  lemma ParseLastField(v: string, t: string)
    requires t == "" || (t[0] != ',' && t[0] != '"')
    ensures ParseFields(Field(v) + t) == Some(([v], t))
  {
    var s := Field(v) + t;
    assert s[1..] == Escape(v) + "\"" + t;
    QuotedRoundTrip(v, t);
  }

  /** A field followed by a comma: read back, then the rest of the line. */
  lemma ParseFieldThenMore(v: string, more: string)
    ensures ParseFields(Field(v) + ("," + more))
      == match ParseFields(more)
         case None => None
         case Some((vs, r)) => Some(([v] + vs, r))
  {
    var s := Field(v) + ("," + more);
    assert s[1..] == Escape(v) + "\"" + ("," + more);
    QuotedRoundTrip(v, "," + more);
    assert ("," + more)[1..] == more;
  }

  /** A line of quoted fields is read back field by field, stopping before anything that is not a comma. */
  lemma {:induction false} FieldsRoundTrip(vs: seq<string>, t: string)
    requires |vs| > 0
    requires t == "" || (t[0] != ',' && t[0] != '"')
    ensures ParseFields(Join(Fields(vs), ",") + t) == Some((vs, t))
    decreases |vs|
  {
    if |vs| == 1 {
      ParseLastField(vs[0], t);
      assert vs == [vs[0]];
    } else {
      FieldsRoundTrip(vs[1..], t);
      ParseFieldsStep(vs, t);
    }
  }

  /** The first field of a longer line, read back in front of the rest. */
  lemma ParseFieldsStep(vs: seq<string>, t: string)
    requires |vs| >= 2
    requires ParseFields(Join(Fields(vs[1..]), ",") + t) == Some((vs[1..], t))
    ensures ParseFields(Join(Fields(vs), ",") + t) == Some((vs, t))
  {
    var fs := Fields(vs);
    FieldsTail(vs);
    JoinThen(fs, ",", t);
    ParseFieldThenMore(vs[0], Join(fs[1..], ",") + t);
    assert [vs[0]] + vs[1..] == vs;
  }

  /** The data lines of `rows`: each row's fields, comma-joined. */
  function Lines(rows: seq<seq<string>>): (ls: seq<string>)
    ensures |ls| == |rows|
    ensures forall i | 0 <= i < |rows| :: ls[i] == Join(Fields(rows[i]), ",")
  {
    seq(|rows|, i requires 0 <= i < |rows| => Join(Fields(rows[i]), ","))
  }

  lemma LinesTail(rows: seq<seq<string>>)
    requires |rows| > 0
    ensures Lines(rows)[1..] == Lines(rows[1..])
  {
  }

  /** A line followed by a newline: read back, then the remaining lines. */
  lemma ParseLineThenMore(vs: seq<string>, more: string)
    requires |vs| > 0
    ensures ParseRows(Join(Fields(vs), ",") + ("\n" + more))
      == match ParseRows(more)
         case None => None
         case Some(rows) => Some([vs] + rows)
  {
    FieldsRoundTrip(vs, "\n" + more);
    assert ("\n" + more)[1..] == more;
  }

  /** Newline-joined lines of quoted fields are read back as the rows they came from. */
  lemma {:induction false} RowsRoundTrip(rows: seq<seq<string>>)
    requires |rows| > 0
    requires forall i | 0 <= i < |rows| :: |rows[i]| > 0
    ensures ParseRows(Join(Lines(rows), "\n")) == Some(rows)
    decreases |rows|
  {
    if |rows| == 1 {
      ParseLastLine(rows[0]);
      assert rows == [rows[0]];
    } else {
      RowsRoundTrip(rows[1..]);
      ParseLinesStep(rows);
    }
  }

  /** A line with nothing after it is the last row. */
  lemma ParseLastLine(vs: seq<string>)
    requires |vs| > 0
    ensures ParseRows(Join(Fields(vs), ",")) == Some([vs])
  {
    FieldsRoundTrip(vs, "");
    assert Join(Fields(vs), ",") + "" == Join(Fields(vs), ",");
  }

  /** The first line of several, read back in front of the remaining rows. */
  lemma ParseLinesStep(rows: seq<seq<string>>)
    requires |rows| >= 2 && |rows[0]| > 0
    requires ParseRows(Join(Lines(rows[1..]), "\n")) == Some(rows[1..])
    ensures ParseRows(Join(Lines(rows), "\n")) == Some(rows)
  {
    var lines := Lines(rows);
    var more := Join(Lines(rows[1..]), "\n");
    LinesTail(rows);
    JoinPair(lines, "\n", Join(Fields(rows[0]), ","), more);
    ParseLineThenMore(rows[0], more);
    assert [rows[0]] + rows[1..] == rows;
  }

  /** Splitting a comma-join of comma-free parts gives the parts back. */
  lemma {:induction false} SplitJoin(parts: seq<string>)
    requires |parts| > 0
    requires forall j | 0 <= j < |parts| :: ',' !in parts[j]
    ensures Split(Join(parts, ","), ',') == parts
    decreases |parts|
  {
    if |parts| == 1 {
      SplitPlain(parts[0], "");
      assert Split("", ',') == [""];
      assert parts[0] + "" == parts[0];
      assert Join(parts, ",") == parts[0] + "";
      assert parts == [parts[0]];
    } else {
      var rest := Join(parts[1..], ",");
      SplitJoin(parts[1..]);
      assert Join(parts, ",") == parts[0] + ("," + rest);
      SplitPlain(parts[0], "," + rest);
      assert ("," + rest)[1..] == rest;
      assert Split("," + rest, ',') == [""] + parts[1..];
      assert parts[0] + "" == parts[0];
      assert [parts[0]] + parts[1..] == parts;
    }
  }

  /** Splitting a comma-free word followed by `t` extends the first part of `t`'s split. */
  lemma {:induction false} SplitPlain(w: string, t: string)
    requires ',' !in w
    ensures Split(w + t, ',') == [w + Split(t, ',')[0]] + Split(t, ',')[1..]
    decreases |w|
  {
    if |w| > 0 {
      SplitPlain(w[1..], t);
      assert (w + t)[1..] == w[1..] + t;
      assert [w[0]] + (w[1..] + Split(t, ',')[0]) == w + Split(t, ',')[0];
    } else {
      assert w + t == t;
      assert w + Split(t, ',')[0] == Split(t, ',')[0];
      assert [Split(t, ',')[0]] + Split(t, ',')[1..] == Split(t, ',');
    }
  }

  /** What a well-formed export reads back as: the header names and each record's values in header order. */
  function Table(data: seq<Record>): (r: (seq<string>, seq<seq<string>>))
    requires |data| > 0
  {
    var keys := Keys(data[0]);
    (keys, seq(|data|, i requires 0 <= i < |data| => RowValues(keys, data[i])))
  }

  /**
   * Reading an export back gives the first record's keys as the header and, for
   * every record in order, exactly one value per header (its text, or "undefined"
   * for a key it lacks), provided the first record has at least one key and no
   * key contains a comma or a newline.
   */
  lemma ConvertToCsvRoundTrip(data: seq<Record>)
    requires |data| > 0 && |data[0]| > 0
    requires forall j | 0 <= j < |data[0]| :: ',' !in data[0][j].0 && '\n' !in data[0][j].0
    ensures ParseCsv(ConvertToCsv(data)) == Some(Table(data))
  {
    var keys := Keys(data[0]);
    var head := Join(keys, ",");
    var rows := Table(data).1;
    var lines := DataLines(keys, data);
    assert lines == Lines(rows);
    var body := Join(lines, "\n");
    assert ([head] + lines)[1..] == lines;
    assert ConvertToCsv(data) == head + "\n" + body;
    JoinLacks(keys, ',', '\n');
    FirstNewlineAt(head, body);
    assert (head + "\n" + body)[..|head|] == head;
    assert (head + "\n" + body)[|head| + 1..] == body;
    RowsRoundTrip(rows);
    SplitJoin(keys);
  }

  /** A join of parts lacking `c`, with a separator other than `c`, lacks `c`. */
  lemma {:induction false} JoinLacks(parts: seq<string>, sep: char, c: char)
    requires sep != c
    requires forall j | 0 <= j < |parts| :: c !in parts[j]
    ensures c !in Join(parts, [sep])
    decreases |parts|
  {
    if |parts| >= 2 {
      JoinLacks(parts[1..], sep, c);
    }
  }

  lemma FirstNewlineAt(head: string, body: string)
    requires '\n' !in head
    ensures FirstNewline(head + "\n" + body) == Some(|head|)
    decreases |head|
  {
    if |head| > 0 {
      FirstNewlineAt(head[1..], body);
      assert (head + "\n" + body)[1..] == head[1..] + "\n" + body;
    }
  }

  /** `convertToCSV` of the rows `data`: a missing key renders as the quoted text "undefined". */
  lemma MissingKeyRendersUndefined(rec: Record, key: string)
    requires key !in Keys(rec)
    ensures CellText(rec, key) == "undefined"
    ensures Field(CellText(rec, key)) == "\"" + "undefined" + "\""
  {
    UndefinedUnescaped();
  }

  lemma UndefinedUnescaped()
    ensures Escape("undefined") == "undefined"
  {
    var u := "undefined";
    assert forall i | 0 <= i < |u| :: u[i] != '"';
  }

  /** One record's cells under `keys`: the value, or an empty cell for a key it lacks. */
  function ValuesRow(keys: seq<string>, rec: Record): (row: Row)
    ensures |row| == |keys|
    ensures forall j | 0 <= j < |keys| :: row[j] == Lookup(rec, keys[j])
  {
    seq(|keys|, j requires 0 <= j < |keys| => Lookup(rec, keys[j]))
  }

  /** The rows `downloadExcel` adds: none for no data, else the first record's keys, then each record's cells in that order. */
  function DownloadLayout(data: seq<Record>): (rows: seq<Row>)
    ensures |data| == 0 ==> rows == []
    ensures |data| > 0 ==> |rows| == |data| + 1 && rows[0] == TextRow(Keys(data[0]))
    ensures |data| > 0 ==> forall i | 0 <= i < |data| :: rows[i + 1] == ValuesRow(Keys(data[0]), data[i])
  {
    if |data| == 0 then []
    else
      var keys := Keys(data[0]);
      [TextRow(keys)] + seq(|data|, i requires 0 <= i < |data| => ValuesRow(keys, data[i]))
  }

  /** Reading a record's own values back under its own keys rebuilds it, prefix by prefix. */
  lemma {:induction false} RecordOfOwnRow(rec: Record, row: Row, n: nat)
    requires KeysDistinct(rec) && n <= |rec| && |row| == |rec|
    requires forall j | 0 <= j < |rec| :: rec[j].0 != "" && row[j] == Some(rec[j].1)
    ensures RecordOf(TextRow(Keys(rec)), row[..n]) == rec[..n]
    decreases n
  {
    if n > 0 {
      RecordOfOwnRow(rec, row, n - 1);
      OwnCellStep(rec, row, n);
    }
  }

  /** Column `n - 1` adds the record's entry `n - 1` under its fresh key. */
  lemma OwnCellStep(rec: Record, row: Row, n: nat)
    requires KeysDistinct(rec) && 0 < n <= |rec| && |row| == |rec|
    requires rec[n - 1].0 != "" && row[n - 1] == Some(rec[n - 1].1)
    requires RecordOf(TextRow(Keys(rec)), row[..n - 1]) == rec[..n - 1]
    ensures RecordOf(TextRow(Keys(rec)), row[..n]) == rec[..n]
  {
    var h := TextRow(Keys(rec));
    OwnCellContributes(rec, row, n);
    RecordOfLast(h, row[..n]);
    FreshLastKey(rec, n);
    PutNew(rec[..n - 1], rec[n - 1].0, rec[n - 1].1);
    PrefixSnoc(rec, n);
  }

  lemma OwnCellContributes(rec: Record, row: Row, n: nat)
    requires 0 < n <= |rec| && |row| == |rec|
    requires rec[n - 1].0 != "" && row[n - 1] == Some(rec[n - 1].1)
    ensures row[..n][..n - 1] == row[..n - 1]
    ensures Contributes(TextRow(Keys(rec)), row[..n], n - 1)
    ensures TextRow(Keys(rec))[n - 1].value == rec[n - 1].0
    ensures row[..n][n - 1].value == rec[n - 1].1
  {
  }

  lemma PrefixSnoc(rec: Record, n: nat)
    requires 0 < n <= |rec|
    ensures rec[..n - 1] + [(rec[n - 1].0, rec[n - 1].1)] == rec[..n]
  {
  }

  lemma FreshLastKey(rec: Record, n: nat)
    requires KeysDistinct(rec) && 0 < n <= |rec|
    ensures rec[n - 1].0 !in Keys(rec[..n - 1])
  {
    var pre := rec[..n - 1];
    forall j | 0 <= j < |pre| ensures Keys(pre)[j] != rec[n - 1].0 {
      assert pre[j] == rec[j];
    }
  }

  /** A record laid out under its own distinct, non-empty keys is read back unchanged. */
  lemma LayoutRowReadBack(keys: seq<string>, rec: Record)
    requires |rec| > 0 && KeysDistinct(rec) && Keys(rec) == keys
    requires forall j | 0 <= j < |rec| :: rec[j].0 != ""
    ensures HasValues(ValuesRow(keys, rec))
    ensures RecordOf(TextRow(keys), ValuesRow(keys, rec)) == rec
  {
    var row := ValuesRow(keys, rec);
    forall j | 0 <= j < |rec| ensures row[j] == Some(rec[j].1) {
      assert Keys(rec)[j] == keys[j];
    }
    assert row[0].Some?;
    RecordOfOwnRow(rec, row, |rec|);
    assert row[..|rec|] == row && rec[..|rec|] == rec;
  }

  /** Records sharing the first one's distinct keys, in order, have distinct keys themselves. */
  lemma SameKeysDistinct(first: Record, rec: Record)
    requires KeysDistinct(first) && Keys(rec) == Keys(first)
    ensures KeysDistinct(rec)
  {
    forall a, b | 0 <= a < b < |rec| ensures rec[a].0 != rec[b].0 {
      assert Keys(rec)[a] == Keys(first)[a] && Keys(rec)[b] == Keys(first)[b];
    }
  }

  /**
   * Reading a downloaded sheet with the route's GET mapping returns the records
   * that were downloaded, when they all share the first record's keys in order
   * and those keys are distinct, non-empty, and at least one.
   */
  lemma DownloadThenRead(data: seq<Record>)
    requires |data| > 0 && |data[0]| > 0 && KeysDistinct(data[0])
    requires forall j | 0 <= j < |data[0]| :: data[0][j].0 != ""
    requires forall i | 0 <= i < |data| :: Keys(data[i]) == Keys(data[0])
    ensures SheetRecords(Sheet(SheetName, DownloadLayout(data))) == data
  {
    var keys := Keys(data[0]);
    var body := seq(|data|, i requires 0 <= i < |data| => ValuesRow(keys, data[i]));
    assert DownloadLayout(data) == [TextRow(keys)] + body;
    forall i | 0 <= i < |data|
      ensures HasValues(body[i]) && RecordOf(TextRow(keys), body[i]) == data[i]
    {
      SharedKeysRowReadBack(data[0], data[i]);
    }
    ReadBackRows(TextRow(keys), body, data);
  }

  /** A record with the first record's keys, laid out under them, is read back unchanged. */
  lemma SharedKeysRowReadBack(first: Record, rec: Record)
    requires |first| > 0 && KeysDistinct(first)
    requires forall j | 0 <= j < |first| :: first[j].0 != ""
    requires Keys(rec) == Keys(first)
    ensures HasValues(ValuesRow(Keys(first), rec))
    ensures RecordOf(TextRow(Keys(first)), ValuesRow(Keys(first), rec)) == rec
  {
    var keys := Keys(first);
    SameKeysDistinct(first, rec);
    assert |rec| == |keys|;
    forall j | 0 <= j < |rec| ensures rec[j].0 != "" {
      assert Keys(rec)[j] == keys[j];
    }
    LayoutRowReadBack(keys, rec);
  }

  /** A sheet whose every data row has a value and reads back as the matching record yields exactly those records. */
  lemma ReadBackRows(headers: Row, rows: seq<Row>, data: seq<Record>)
    requires |rows| == |data|
    requires forall i | 0 <= i < |data| :: HasValues(rows[i]) && RecordOf(headers, rows[i]) == data[i]
    ensures SheetRecords(Sheet(SheetName, [headers] + rows)) == data
  {
    AllNonEmpty(rows);
    assert ([headers] + rows)[1..] == rows;
    var rs := RecordsOf(headers, rows);
    assert forall i | 0 <= i < |data| :: rs[i] == data[i];
  }

  lemma {:induction false} AllNonEmpty(rows: seq<Row>)
    requires forall i | 0 <= i < |rows| :: HasValues(rows[i])
    ensures NonEmptyRows(rows) == rows
    decreases |rows|
  {
    if |rows| > 0 {
      AllNonEmpty(rows[1..]);
      assert [rows[0]] + rows[1..] == rows;
    }
  }
}

=== FILE: host.dfy ===
/**
 * The host page of `src/app/page.tsx`: two optional results decide whether the
 * wizard is mounted. The wizard's state lives only while it is mounted, so a
 * reset mounts a fresh one on the entry slide.
 */
module Host {
  import opened Base
  import opened SlideTable
  import opened Navigator

  datatype HostState = HostState(
    completion: Option<map<string, string>>,
    spreadsheet: Option<SpreadsheetRequest>,
    wizard: NavState)

  /** The wizard is rendered exactly while neither result is set. */
  predicate WizardShown(h: HostState) {
    h.completion.None? && h.spreadsheet.None?
  }

  /** The page on first load: no results, a fresh wizard on the entry slide. */
  function Start(): (h: HostState)
    ensures WizardShown(h)
    ensures Render(h.wizard) == SlideView(Slides[DefaultSlide], false)
    ensures h.wizard == Init(DefaultSlide)
  {
    SlidesWellFormed();
    HostState(None, None, Init(DefaultSlide))
  }

  /** `handleComplete`: store the completion data, leaving the spreadsheet result alone. */
  function HandleComplete(h: HostState, data: map<string, string>): (r: HostState)
    ensures r.completion == Some(data) && r.spreadsheet == h.spreadsheet
    ensures !WizardShown(r)
  {
    h.(completion := Some(data))
  }

  /** `handleSpreadsheetUpdate`: store the request, leaving the completion result alone. */
  function HandleSpreadsheetUpdate(h: HostState, req: SpreadsheetRequest): (r: HostState)
    ensures r.spreadsheet == Some(req) && r.completion == h.completion
    ensures !WizardShown(r)
  {
    h.(spreadsheet := Some(req))
  }

  /** Route a wizard emission to the callback it names. */
  function Deliver(h: HostState, e: Emission): (r: HostState)
    ensures e.Completed? ==> r == HandleComplete(h, e.data)
    ensures e.SpreadsheetUpdate? ==> r == HandleSpreadsheetUpdate(h, e.request)
  {
    match e
    case Completed(data) => HandleComplete(h, data)
    case SpreadsheetUpdate(req) => HandleSpreadsheetUpdate(h, req)
  }

  /** `resetFlow`: clear both results; the wizard mounts again from scratch. */
  function ResetFlow(h: HostState): (r: HostState)
    ensures r.completion.None? && r.spreadsheet.None? && WizardShown(r)
    ensures r.wizard == Init(DefaultSlide)
  {
    HostState(None, None, Init(DefaultSlide))
  }

  datatype PageEvent = WizardEvent(event: Event) | StartNewFlow

  /**
   * One page event. Wizard events reach the wizard only while it is shown; the
   * "Start New Flow" buttons exist only while a result is shown.
   */
  function PageStep(h: HostState, e: PageEvent): (r: HostState)
    ensures e.StartNewFlow? && !WizardShown(h) ==> r == ResetFlow(h)
    ensures e.StartNewFlow? && WizardShown(h) ==> r == h
    ensures e.WizardEvent? && !WizardShown(h) ==> r == h
    ensures e.WizardEvent? && WizardShown(h) ==>
      var (w, out) := Step(h.wizard, e.event);
      if out.Some? then r == Deliver(h, out.value) else r == h.(wizard := w)
  {
    match e
    case StartNewFlow => if WizardShown(h) then h else ResetFlow(h)
    case WizardEvent(ev) =>
      if !WizardShown(h) then h
      else
        var (w, out) := Step(h.wizard, ev);
        if out.Some? then Deliver(h, out.value) else h.(wizard := w)
  }

  /**
   * At most one result at a time, and a shown wizard satisfies the navigator
   * invariant: slides from the table, at most one overlay open, only response
   * keys in the data.
   */
  ghost predicate PageInvariant(h: HostState) {
    && !(h.completion.Some? && h.spreadsheet.Some?)
    && (WizardShown(h) ==> Navigator.Invariant(h.wizard))
  }

  lemma StartInvariant()
    ensures PageInvariant(Start())
  {
    SlidesWellFormed();
    InitInvariant(DefaultSlide);
  }

  /** Every page event keeps the invariant: in particular the two results are never shown together. */
  lemma PageStepPreservesInvariant(h: HostState, e: PageEvent)
    requires PageInvariant(h)
    ensures PageInvariant(PageStep(h, e))
  {
    SlidesWellFormed();
    InitInvariant(DefaultSlide);
    if e.WizardEvent? && WizardShown(h) {
      StepPreservesInvariant(h.wizard, e.event);
    }
  }

  /** The page after a sequence of events. */
  function RunPage(h: HostState, events: seq<PageEvent>): (r: HostState)
    decreases |events|
  {
    if |events| == 0 then h else RunPage(PageStep(h, events[0]), events[1..])
  }

  /** From first load, whatever the user does, at most one result is ever shown. */
  lemma {:induction false} NeverBothResults(h: HostState, events: seq<PageEvent>)
    requires PageInvariant(h)
    ensures PageInvariant(RunPage(h, events))
    ensures !(RunPage(h, events).completion.Some? && RunPage(h, events).spreadsheet.Some?)
    decreases |events|
  {
    if |events| > 0 {
      PageStepPreservesInvariant(h, events[0]);
      NeverBothResults(PageStep(h, events[0]), events[1..]);
    }
  }

  /** Any emission from the wizard ends its session: the page then shows a result instead. */
  lemma EmissionEndsSession(h: HostState, ev: Event)
    requires WizardShown(h) && Step(h.wizard, ev).1.Some?
    ensures !WizardShown(PageStep(h, WizardEvent(ev)))
  {
  }

  /** The spreadsheet summary: whether the service exists, then its name only when present and non-empty. */
  function SpreadsheetSummary(req: SpreadsheetRequest): (lines: seq<string>)
    ensures |lines| == if Truthy(req.serviceName) then 2 else 1
    ensures lines[0] == "Service Exists: " + (if req.isExisting then "Yes" else "No")
    ensures |lines| == 2 ==> lines[1] == "Service Name: " + req.serviceName.value
  {
    ["Service Exists: " + (if req.isExisting then "Yes" else "No")]
      + (if Truthy(req.serviceName) then ["Service Name: " + req.serviceName.value] else [])
  }

  /**
   * "No", "No", submit with an empty name box: the page shows the spreadsheet
   * summary "Service Exists: No" with no name line, and the wizard is gone.
   */
  lemma EmptyNameSummary()
    ensures var h := RunPage(Start(), [WizardEvent(ChooseOption(1)), WizardEvent(ChooseOption(1)), WizardEvent(SubmitName)]);
      && !WizardShown(h)
      && h.spreadsheet == Some(SpreadsheetRequest(None, false))
      && SpreadsheetSummary(h.spreadsheet.value) == ["Service Exists: No"]
  {
    var events := [WizardEvent(ChooseOption(1)), WizardEvent(ChooseOption(1)), WizardEvent(SubmitName)];
    EntryNoStep();
    CheckNoStep();
    SubmitEmptyStep();
    var h1 := PageStep(Start(), events[0]);
    var h2 := PageStep(h1, events[1]);
    var h3 := PageStep(h2, events[2]);
    assert h3.spreadsheet == Some(SpreadsheetRequest(None, false));
    assert events[1..][1..] == [events[2]];
    assert RunPage(Start(), events) == h3;
    NamelessSummary();
  }

  /** A request without a name summarises as the existence line alone. */
  lemma NamelessSummary()
    ensures SpreadsheetSummary(SpreadsheetRequest(None, false)) == ["Service Exists: No"]
  {
    assert SpreadsheetSummary(SpreadsheetRequest(None, false)) == ["Service Exists: " + "No"];
    assert "Service Exists: " + "No" == "Service Exists: No";
  }
}

=== FILE: navigator.dfy ===
/**
 * The wizard state machine of `src/components/slides/SlideNavigator.tsx`.
 * Each handler is one atomic transition on an immutable state and returns the
 * event it hands to the host, if any; `Step` delivers a user event only when the
 * rendered view offers the control that raises it.
 */
module Navigator {
  import opened Base
  import opened Text
  import opened SlideTable
  import opened Directory

  /** The `{serviceName?, exists}` object passed to the spreadsheet-update callback. */
  datatype SpreadsheetRequest = SpreadsheetRequest(serviceName: Option<string>, isExisting: bool)

  /** A call the navigator makes on its host. */
  datatype Emission =
    | Completed(data: map<string, string>)
    | SpreadsheetUpdate(request: SpreadsheetRequest)

  /**
   * Navigation state (current slide, history stack, response map) plus the two
   * overlay flags and the text typed into the service-name box.
   */
  datatype NavState = NavState(
    current: string,
    history: seq<string>,
    data: map<string, string>,
    nameInputOpen: bool,
    selectorOpen: bool,
    nameText: string)

  /** User actions the rendered views can raise. */
  datatype Event =
    | ChooseOption(index: nat)
    | GoBack
    | EditName(text: string)
    | SubmitName
    | CancelName
    | ConfirmService(service: Service)
    | CancelSelector

  /** What the navigator renders, in order of precedence. */
  datatype View =
    | SlideNotFound(id: string)
    | SelectorView
    | NameInputView(text: string)
    | SlideView(slide: Slide, backButton: bool)

  /** The key under which a slide's answer is recorded. */
  function ResponseKey(id: string): string {
    id + "_response"
  }

  /** Distinct slides record their answers under distinct keys. */
  lemma ResponseKeyInjective(a: string, b: string)
    requires ResponseKey(a) == ResponseKey(b)
    ensures a == b
  {
    assert a == ResponseKey(a)[..|a|];
    assert b == ResponseKey(b)[..|b|];
  }

  /** A fresh navigator: the given slide, empty history, no answers, no overlay. */
  function Init(initialSlide: string): (s: NavState)
    ensures s.current == initialSlide && s.history == [] && s.data == map[]
    ensures !s.nameInputOpen && !s.selectorOpen && s.nameText == ""
  {
    NavState(initialSlide, [], map[], false, false, "")
  }

  /** Render precedence: unknown slide, then the selector, then the name box, then the slide. */
  function Render(s: NavState): (v: View)
    ensures v.SlideNotFound? <==> s.current !in Slides
    ensures v.SlideNotFound? ==> v.id == s.current
    ensures v.SelectorView? <==> s.current in Slides && s.selectorOpen
    ensures v.NameInputView? <==> s.current in Slides && !s.selectorOpen && s.nameInputOpen
    ensures v.NameInputView? ==> v.text == s.nameText
    ensures v.SlideView? ==> v.slide == Slides[s.current] && (v.backButton <==> |s.history| > 0)
  {
    if s.current !in Slides then SlideNotFound(s.current)
    else if s.selectorOpen then SelectorView
    else if s.nameInputOpen then NameInputView(s.nameText)
    else SlideView(Slides[s.current], |s.history| > 0)
  }

  /** Whether `navigate` moves: the target is present, non-empty and a key of the table. */
  predicate Resolves(o: SlideOption) {
    Truthy(o.nextSlide) && o.nextSlide.value in Slides
  }

  /**
   * `handleOptionSelect`: record the answer, push the current slide on every
   * selection, then act on the option's tag.
   */
  function OnOptionSelect(s: NavState, o: SlideOption): (r: (NavState, Option<Emission>))
    requires s.current in Slides
    ensures r.0.history == s.history + [s.current]
    ensures r.0.data.Keys == s.data.Keys + {ResponseKey(s.current)}
    ensures r.0.data[ResponseKey(s.current)] == o.value
    ensures forall k | k in s.data && k != ResponseKey(s.current) :: r.0.data[k] == s.data[k]
    ensures r.0.current == (if o.action == Navigate && Resolves(o) then o.nextSlide.value else s.current)
    ensures r.0.nameInputOpen == (s.nameInputOpen || o.action == UpdateSpreadsheet)
    ensures r.0.selectorOpen == (s.selectorOpen || o.action == LookupServices)
    ensures r.0.nameText == s.nameText
    ensures r.1.Some? <==> o.action == Proceed
    ensures o.action == Proceed ==> r.1 == Some(Completed(r.0.data))
  {
    SlidesWellFormed();
    var slide := Slides[s.current];
    var newData := s.data[ResponseKey(slide.id) := o.value];
    var pushed := s.(history := s.history + [s.current], data := newData);
    match o.action
    case Proceed => (pushed, Some(Completed(newData)))
    case Navigate =>
      if Resolves(o) then (pushed.(current := o.nextSlide.value), None) else (pushed, None)
    case UpdateSpreadsheet => (pushed.(nameInputOpen := true), None)
    case LookupServices => (pushed.(selectorOpen := true), None)
  }

  /** `handleGoBack`: pop the last history entry into the current slide; no-op on empty history. */
  function OnGoBack(s: NavState): (r: NavState)
    ensures |s.history| == 0 ==> r == s
    ensures |s.history| > 0 ==>
      && r.current == s.history[|s.history| - 1]
      && r.history + [r.current] == s.history
      && r.data == s.data
      && r.nameInputOpen == s.nameInputOpen && r.selectorOpen == s.selectorOpen
      && r.nameText == s.nameText
  {
    if |s.history| > 0 then
      s.(current := s.history[|s.history| - 1], history := s.history[..|s.history| - 1])
    else s
  }

  /** The name box's optional value: the trimmed text, or absent when that is empty. */
  function SubmittedName(text: string): (r: Option<string>)
    ensures r.None? <==> AllSpace(text)
    ensures r.Some? ==> r.value == Trim(text) && !IsSpace(r.value[0]) && !IsSpace(r.value[|r.value| - 1])
  {
    var t := Trim(text);
    if t == "" then None else Some(t)
  }

  /** `handleServiceNameSubmit`: report the name as a non-existing service, close and clear the box. */
  function OnNameSubmit(s: NavState): (r: (NavState, Option<Emission>))
    ensures r.1 == Some(SpreadsheetUpdate(SpreadsheetRequest(SubmittedName(s.nameText), false)))
    ensures !r.0.nameInputOpen && r.0.nameText == ""
    ensures r.0.current == s.current && r.0.history == s.history && r.0.data == s.data
    ensures r.0.selectorOpen == s.selectorOpen
  {
    (s.(nameInputOpen := false, nameText := ""),
     Some(SpreadsheetUpdate(SpreadsheetRequest(SubmittedName(s.nameText), false))))
  }

  /** The name box's cancel button: close it, keeping the typed text. */
  function OnNameCancel(s: NavState): (r: NavState)
    ensures !r.nameInputOpen
    ensures r.nameText == s.nameText && r.current == s.current && r.history == s.history
    ensures r.data == s.data && r.selectorOpen == s.selectorOpen
  {
    s.(nameInputOpen := false)
  }

  /** `handleServiceSelect`: report the chosen service as existing and close the selector. */
  function OnServiceSelect(s: NavState, svc: Service): (r: (NavState, Option<Emission>))
    ensures r.1 == Some(SpreadsheetUpdate(SpreadsheetRequest(Some(svc.name), true)))
    ensures !r.0.selectorOpen
    ensures r.0.current == s.current && r.0.history == s.history && r.0.data == s.data
    ensures r.0.nameInputOpen == s.nameInputOpen && r.0.nameText == s.nameText
  {
    (s.(selectorOpen := false), Some(SpreadsheetUpdate(SpreadsheetRequest(Some(svc.name), true))))
  }

  /** `handleServiceSelectorCancel`: close the selector, then go back. */
  function OnSelectorCancel(s: NavState): (r: NavState)
    ensures !r.selectorOpen
    ensures r == OnGoBack(s.(selectorOpen := false))
  {
    OnGoBack(s.(selectorOpen := false))
  }

  /** Whether `e` is a selection the current view accepts. */
  predicate AcceptsChoice(s: NavState, e: Event) {
    e.ChooseOption? && Render(s).SlideView? && e.index < |Slides[s.current].options|
  }

  /** Whether the rendered view offers a control that `e` operates. */
  predicate Offered(s: NavState, e: Event) {
    match Render(s)
    case SlideNotFound(_) => false
    case SlideView(_, back) => AcceptsChoice(s, e) || (e.GoBack? && back)
    case NameInputView(_) => e.EditName? || e.SubmitName? || e.CancelName?
    case SelectorView => e.ConfirmService? || e.CancelSelector?
  }

  /**
   * One user event. The event reaches its handler only if the rendered view
   * offers its control; otherwise nothing happens. The back button shows only
   * with a non-empty history.
   */
  function Step(s: NavState, e: Event): (r: (NavState, Option<Emission>))
    ensures Render(s).SlideNotFound? ==> r == (s, None)
    ensures AcceptsChoice(s, e) ==> r == OnOptionSelect(s, Slides[s.current].options[e.index])
    ensures |r.0.history| == |s.history| + 1 <==> AcceptsChoice(s, e)
    ensures |r.0.history| + 1 == |s.history| <==>
      (e.GoBack? && Render(s).SlideView? && |s.history| > 0)
      || (e.CancelSelector? && Render(s).SelectorView? && |s.history| > 0)
    ensures r.1.Some? ==> e.ChooseOption? || e.SubmitName? || e.ConfirmService?
    ensures !Offered(s, e) ==> r == (s, None)
    ensures Render(s).SlideView? && e.GoBack? ==>
      r == (if |s.history| > 0 then (OnGoBack(s), None) else (s, None))
    ensures Render(s).NameInputView? && e.EditName? ==> r == (s.(nameText := e.text), None)
    ensures Render(s).NameInputView? && e.SubmitName? ==> r == OnNameSubmit(s)
    ensures Render(s).NameInputView? && e.CancelName? ==> r == (OnNameCancel(s), None)
    ensures Render(s).SelectorView? && e.ConfirmService? ==> r == OnServiceSelect(s, e.service)
    ensures Render(s).SelectorView? && e.CancelSelector? ==> r == (OnSelectorCancel(s), None)
  {
    match Render(s)
    case SlideNotFound(_) => (s, None)
    case SlideView(slide, back) =>
      (match e
       case ChooseOption(i) =>
         if i < |slide.options| then OnOptionSelect(s, slide.options[i]) else (s, None)
       case GoBack => if back then (OnGoBack(s), None) else (s, None)
       case _ => (s, None))
    case NameInputView(_) =>
      (match e
       case EditName(text) => (s.(nameText := text), None)
       case SubmitName => OnNameSubmit(s)
       case CancelName => (OnNameCancel(s), None)
       case _ => (s, None))
    case SelectorView =>
      (match e
       case ConfirmService(svc) => OnServiceSelect(s, svc)
       case CancelSelector => (OnSelectorCancel(s), None)
       case _ => (s, None))
  }

  /** Every key that can appear in the response map. */
  ghost predicate IsResponseKey(k: string) {
    exists id | id in Slides :: k == ResponseKey(id)
  }

  /**
   * What every state reached from a known slide satisfies: the current slide and
   * every history entry are in the table, at most one overlay is open, an open
   * overlay sits above a history whose top is the current slide, and every
   * recorded key is some slide's response key.
   */
  ghost predicate Invariant(s: NavState) {
    && s.current in Slides
    && (forall i | 0 <= i < |s.history| :: s.history[i] in Slides)
    && !(s.nameInputOpen && s.selectorOpen)
    && ((s.nameInputOpen || s.selectorOpen) ==> |s.history| > 0 && s.history[|s.history| - 1] == s.current)
    && (forall k | k in s.data :: IsResponseKey(k))
  }

  lemma InitInvariant(id: string)
    requires id in Slides
    ensures Invariant(Init(id))
  {
  }

  /** Every step preserves the invariant; in particular the navigator never reaches an unknown slide. */
  lemma StepPreservesInvariant(s: NavState, e: Event)
    requires Invariant(s)
    ensures Invariant(Step(s, e).0)
    ensures !Render(Step(s, e).0).SlideNotFound?
  {
    if AcceptsChoice(s, e) {
      var o := Slides[s.current].options[e.index];
      OptionInTable(s.current, e.index);
      ChoicePreservesInvariant(s, o);
    }
  }

  /** Every option of a known slide is well formed against the table. */
  lemma OptionInTable(id: string, i: nat)
    requires id in Slides && i < |Slides[id].options|
    ensures OptionWellFormed(Slides, Slides[id].options[i])
  {
    SlidesWellFormed();
    assert SlideWellFormed(Slides, id);
  }

  /** Choosing a well-formed option on a slide with no overlay open keeps the invariant. */
  lemma ChoicePreservesInvariant(s: NavState, o: SlideOption)
    requires Invariant(s) && !s.nameInputOpen && !s.selectorOpen
    requires OptionWellFormed(Slides, o)
    ensures Invariant(OnOptionSelect(s, o).0)
  {
    var r := OnOptionSelect(s, o).0;
    assert IsResponseKey(ResponseKey(s.current));
    forall k | k in r.data ensures IsResponseKey(k) {
      if k != ResponseKey(s.current) {
        assert k in s.data;
      }
    }
    forall i | 0 <= i < |r.history| ensures r.history[i] in Slides {
      if i < |s.history| {
        assert r.history[i] == s.history[i];
      }
    }
  }

  /** The navigator's events over a run, starting from `s`. */
  function Run(s: NavState, events: seq<Event>): (r: (NavState, seq<Emission>))
    ensures |r.1| <= |events|
    decreases |events|
  {
    if |events| == 0 then (s, [])
    else
      var (s1, out) := Step(s, events[0]);
      var (s2, outs) := Run(s1, events[1..]);
      (s2, (if out.Some? then [out.value] else []) + outs)
  }

  /** A run from a state satisfying the invariant keeps it, whatever the events. */
  lemma {:induction false} RunPreservesInvariant(s: NavState, events: seq<Event>)
    requires Invariant(s)
    ensures Invariant(Run(s, events).0)
    decreases |events|
  {
    if |events| > 0 {
      StepPreservesInvariant(s, events[0]);
      RunPreservesInvariant(Step(s, events[0]).0, events[1..]);
    }
  }

  /** A navigator started on an unknown slide shows the error and ignores every event. */
  lemma UnknownSlideIsTerminal(s: NavState, events: seq<Event>)
    requires s.current !in Slides
    ensures Run(s, events) == (s, [])
    decreases |events|
  {
    if |events| > 0 {
      UnknownSlideIsTerminal(s, events[1..]);
    }
  }

  /** Going back right after a `navigate` restores the slide and the history; only the answer stays. */
  lemma GoBackUndoesNavigate(s: NavState, o: SlideOption)
    requires s.current in Slides && o.action == Navigate
    ensures var back := OnGoBack(OnOptionSelect(s, o).0);
      && back.current == s.current
      && back.history == s.history
      && back.data == s.data[ResponseKey(s.current) := o.value]
  {
    var r := OnOptionSelect(s, o).0;
    assert r.history[..|r.history| - 1] == s.history;
  }

  /**
   * Because the lookup choice already pushed the current slide, cancelling the
   * selector pops that entry: the wizard stays on the same slide and the
   * history is back to what it was before the choice.
   */
  lemma SelectorCancelStaysOnSlide(s: NavState, o: SlideOption)
    requires s.current in Slides && !s.selectorOpen && o.action == LookupServices
    ensures var op := OnOptionSelect(s, o).0;
      && op.selectorOpen
      && OnSelectorCancel(op).current == s.current
      && OnSelectorCancel(op).history == s.history
      && !OnSelectorCancel(op).selectorOpen
  {
    var op := OnOptionSelect(s, o).0;
    assert op.history[..|op.history| - 1] == s.history;
  }

  /**
   * Cancelling the name box leaves the pushed entry in place, so the next back
   * press returns to the same slide, and the typed text reappears when the box
   * is opened again.
   */
  lemma NameCancelKeepsDuplicateEntry(s: NavState, o: SlideOption, text: string)
    requires s.current in Slides && !s.nameInputOpen && o.action == UpdateSpreadsheet
    ensures var op := OnOptionSelect(s, o).0.(nameText := text);
      var closed := OnNameCancel(op);
      && closed.history == s.history + [s.current]
      && OnGoBack(closed).current == s.current
      && closed.nameText == text
  {
  }

  /** Answering "Yes" on the entry slide completes with exactly that answer. */
  lemma EntryYesCompletes()
    ensures Step(Init(DefaultSlide), ChooseOption(0)).1
      == Some(Completed(map["dynatraceOnboarding_response" := "yes"]))
  {
    var s := Init(DefaultSlide);
    var yes := Slides[DefaultSlide].options[0];
    assert yes == SlideOption("Yes", "yes", Proceed, None);
    assert AcceptsChoice(s, ChooseOption(0));
    assert ResponseKey(DefaultSlide) == "dynatraceOnboarding_response";
  }

  /**
   * "No", then "No", then submitting an empty name: the host receives a request
   * without a name for a non-existing service, and the technical-service slide
   * is shown again with both answers recorded.
   */
  lemma NoNoEmptyName()
    ensures
      var (s1, out1) := Step(Init(DefaultSlide), ChooseOption(1));
      var (s2, out2) := Step(s1, ChooseOption(1));
      var (s3, out3) := Step(s2, SubmitName);
      && out1 == None && s1.current == "technicalServiceCheck"
      && out2 == None && Render(s2) == NameInputView("")
      && out3 == Some(SpreadsheetUpdate(SpreadsheetRequest(None, false)))
      && Render(s3) == SlideView(Slides["technicalServiceCheck"], true)
      && s3.history == ["dynatraceOnboarding", "technicalServiceCheck"]
      && s3.data == map["dynatraceOnboarding_response" := "no", "technicalServiceCheck_response" := "no"]
  {
    EntryNoStep();
    CheckNoStep();
    SubmitEmptyStep();
  }

  /** The two answers of the "No", "No" path. */
  function NoNoData(): map<string, string> {
    map["dynatraceOnboarding_response" := "no", "technicalServiceCheck_response" := "no"]
  }

  lemma EntryNoStep()
    ensures Step(Init(DefaultSlide), ChooseOption(1))
      == (NavState("technicalServiceCheck", ["dynatraceOnboarding"], map["dynatraceOnboarding_response" := "no"], false, false, ""), None)
  {
    var s0 := Init(DefaultSlide);
    var no0 := Slides[DefaultSlide].options[1];
    assert no0 == SlideOption("No", "no", Navigate, Some("technicalServiceCheck"));
    assert AcceptsChoice(s0, ChooseOption(1));
    assert ResponseKey(DefaultSlide) == "dynatraceOnboarding_response";
    var r := OnOptionSelect(s0, no0);
    assert r.0.history == [] + [DefaultSlide] == ["dynatraceOnboarding"];
    assert r.0.data == map[][ResponseKey(DefaultSlide) := "no"] == map["dynatraceOnboarding_response" := "no"];
  }

  lemma CheckNoStep()
    ensures Step(NavState("technicalServiceCheck", ["dynatraceOnboarding"], map["dynatraceOnboarding_response" := "no"], false, false, ""), ChooseOption(1))
      == (NavState("technicalServiceCheck", ["dynatraceOnboarding", "technicalServiceCheck"], NoNoData(), true, false, ""), None)
  {
    var s1 := NavState("technicalServiceCheck", ["dynatraceOnboarding"], map["dynatraceOnboarding_response" := "no"], false, false, "");
    var no1 := Slides["technicalServiceCheck"].options[1];
    assert no1 == SlideOption("No", "no", UpdateSpreadsheet, None);
    assert AcceptsChoice(s1, ChooseOption(1));
    assert ResponseKey("technicalServiceCheck") == "technicalServiceCheck_response";
    var r := OnOptionSelect(s1, no1);
    assert r.0.history == ["dynatraceOnboarding"] + ["technicalServiceCheck"] == ["dynatraceOnboarding", "technicalServiceCheck"];
    assert r.0.data == s1.data[ResponseKey("technicalServiceCheck") := "no"] == NoNoData();
  }

  lemma SubmitEmptyStep()
    ensures Step(NavState("technicalServiceCheck", ["dynatraceOnboarding", "technicalServiceCheck"], NoNoData(), true, false, ""), SubmitName)
      == (NavState("technicalServiceCheck", ["dynatraceOnboarding", "technicalServiceCheck"], NoNoData(), false, false, ""),
          Some(SpreadsheetUpdate(SpreadsheetRequest(None, false))))
  {
    assert AllSpace("");
  }
}

=== FILE: records.dfy ===
/**
 * String-keyed records with JavaScript object semantics: keys keep their first
 * insertion order, and assigning an existing key replaces its value in place.
 */
module Records {
  import opened Base

  /** An object with string keys and string values, as an ordered list of entries. */
  type Record = seq<(string, string)>

  /** The record's keys, in order. */
  function Keys(r: Record): (ks: seq<string>)
    ensures |ks| == |r|
    ensures forall i | 0 <= i < |r| :: ks[i] == r[i].0
  {
    seq(|r|, i requires 0 <= i < |r| => r[i].0)
  }

  predicate KeysDistinct(r: Record) {
    forall i, j | 0 <= i < j < |r| :: r[i].0 != r[j].0
  }

  /** Property access: the value stored under `k`, if any. */
  function Lookup(r: Record, k: string): (v: Option<string>)
    ensures v.Some? <==> k in Keys(r)
    ensures v.Some? ==> exists i | 0 <= i < |r| :: r[i] == (k, v.value)
    ensures KeysDistinct(r) ==> forall i | 0 <= i < |r| && r[i].0 == k :: v == Some(r[i].1)
  {
    if |r| == 0 then None
    else if r[0].0 == k then Some(r[0].1)
    else
      var rest := Lookup(r[1..], k);
      assert Keys(r) == [r[0].0] + Keys(r[1..]);
      if rest.Some? then
        var i :| 0 <= i < |r[1..]| && r[1..][i] == (k, rest.value);
        assert r[i + 1] == (k, rest.value);
        rest
      else rest
  }

  /** Property assignment `r[k] = v`: an existing key keeps its place, a new key goes last. */
  function Put(r: Record, k: string, v: string): (r': Record)
    ensures Keys(r') == if k in Keys(r) then Keys(r) else Keys(r) + [k]
  {
    if |r| == 0 then [(k, v)]
    else if r[0].0 == k then
      KeysCons(r[0], r[1..]);
      KeysCons((k, v), r[1..]);
      assert r == [r[0]] + r[1..];
      [(k, v)] + r[1..]
    else
      var rest := Put(r[1..], k, v);
      KeysCons(r[0], r[1..]);
      KeysCons(r[0], rest);
      assert r == [r[0]] + r[1..];
      [r[0]] + rest
  }

  lemma KeysCons(e: (string, string), r: Record)
    ensures Keys([e] + r) == [e.0] + Keys(r)
  {
  }

  /** After `r[k] = v`, reading `k` gives `v` and every other key reads as before. */
  lemma {:induction false} PutLookup(r: Record, k: string, v: string)
    ensures Lookup(Put(r, k, v), k) == Some(v)
    ensures forall k' | k' != k :: Lookup(Put(r, k, v), k') == Lookup(r, k')
  {
    if |r| > 0 && r[0].0 != k {
      PutLookup(r[1..], k, v);
      assert ([r[0]] + Put(r[1..], k, v))[1..] == Put(r[1..], k, v);
    }
  }

  /** Assignment never duplicates a key. */
  lemma PutKeepsDistinct(r: Record, k: string, v: string)
    requires KeysDistinct(r)
    ensures KeysDistinct(Put(r, k, v))
  {
    var r' := Put(r, k, v);
    forall i, j | 0 <= i < j < |r'| ensures r'[i].0 != r'[j].0 {
      assert Keys(r')[i] == r'[i].0 && Keys(r')[j] == r'[j].0;
    }
  }

  /** Assigning a key the record lacks appends one entry. */
  lemma {:induction false} PutNew(r: Record, k: string, v: string)
    requires k !in Keys(r)
    ensures Put(r, k, v) == r + [(k, v)]
  {
    if |r| > 0 {
      assert r == [r[0]] + r[1..];
      KeysCons(r[0], r[1..]);
      PutNew(r[1..], k, v);
      assert [r[0]] + (r[1..] + [(k, v)]) == r + [(k, v)];
    }
  }
}

=== FILE: rowstore.dfy ===
/**
 * The spreadsheet route of `src/app/api/excel/route.ts`: POST appends one row
 * holding only the API name, creating the workbook with its header row when the
 * file cannot be read; GET turns every later non-empty row into a record keyed
 * by the header row. The stored file is an `Option<Workbook>` (absent when it
 * cannot be read); the xlsx codec itself is not modelled.
 */
module RowStore {
  import opened Base
  import opened Records

  /** A cell's text, or absent for a cell without a value. */
  type Cell = Option<string>

  type Row = seq<Cell>

  datatype Sheet = Sheet(name: string, rows: seq<Row>)

  /** Worksheets in id order; worksheet 1 is the first. */
  type Workbook = seq<Sheet>

  /** The body of a POST request. */
  datatype UpdateRequest = UpdateRequest(
    serviceName: Option<string>,
    isExisting: bool,
    teamName: Option<string>,
    serviceId: Option<string>,
    timestamp: Option<string>)

  /** A successful POST response: its message and its `data` part. */
  datatype PostReply = PostReply(message: string, serviceName: Option<string>, isExisting: bool, timestamp: Option<string>)

  /** A JSON response: `success: true` with a payload, or an error message with an HTTP status. */
  datatype Response<T> = Success(value: T) | Failure(error: string, status: int)

  const ReadError: string := "Failed to read Excel file"
  const WriteError: string := "Failed to write to Excel file"
  const PostedMessage: string := "Row added successfully"
  const SheetName: string := "MSE Trace Analysis"

  /** The column that receives the service name. */
  const ApiNameColumn: nat := 3

  /** The header row written into a newly created workbook: an unnamed column, then 19 names. */
  const Header: seq<string> := [
    "",
    "Technical Service ( as in PD)",
    "Team Name (as in PD)",
    "Api Name",
    "Service Path",
    "CMDB ID",
    "tech-svc",
    "team name",
    "Prime Manager",
    "Prime Director",
    "Prime VP",
    "MSE",
    "Next_Hop_Service_ID",
    "Next_Hop_Process_Group",
    "Next_Hop_Endpoint",
    "Analysis_Status",
    "Analysis_Timestamp",
    "Next_Hop_Service_Code",
    "Enrichment_Status",
    "team_name"
  ]

  /** The header's shape: twenty columns, the first unnamed, the API name in column 3, no name repeated. */
  lemma HeaderShape()
    ensures |Header| == 20
    ensures Header[0] == "" && Header[ApiNameColumn] == "Api Name"
    ensures forall i | 1 <= i < |Header| :: Header[i] != ""
    ensures forall i, j | 0 <= i < j < |Header| :: Header[i] != Header[j]
  {
  }

  /** `addRow` of string values: every cell holds its string. */
  function TextRow(texts: seq<string>): (r: Row)
    ensures |r| == |texts|
    ensures forall i | 0 <= i < |r| :: r[i] == Some(texts[i])
  {
    seq(|texts|, i requires 0 <= i < |texts| => Some(texts[i]))
  }

  /** The appended row: as wide as the header, the service name (or `""`) in the API-name column, empty text elsewhere. */
  function NewRow(serviceName: Option<string>): (r: seq<string>)
    ensures |r| == |Header|
    ensures r[ApiNameColumn] == (if Truthy(serviceName) then serviceName.value else "")
    ensures forall i | 0 <= i < |r| && i != ApiNameColumn :: r[i] == ""
  {
    seq(|Header|, i => if i == ApiNameColumn then serviceName.GetOr("") else "")
  }

  /** The workbook POST works on: the stored one, or a new one holding only the header row. */
  function Opened(stored: Option<Workbook>): (wb: Workbook)
    ensures stored.Some? ==> wb == stored.value
    ensures stored.None? ==> |wb| == 1 && wb[0].name == SheetName && wb[0].rows == [TextRow(Header)]
  {
    if stored.Some? then stored.value else [Sheet(SheetName, [TextRow(Header)])]
  }

  /**
   * POST. `body` is absent when the request body is not valid JSON; `writeSucceeds`
   * is the outcome of saving the file. Returns the stored file afterwards and the response.
   */
  function Post(stored: Option<Workbook>, body: Option<UpdateRequest>, writeSucceeds: bool): (r: (Option<Workbook>, Response<PostReply>))
    ensures r.1.Success? <==> body.Some? && |Opened(stored)| > 0 && writeSucceeds
    ensures r.1.Failure? ==> r.0 == stored && r.1 == Failure(WriteError, 500)
    ensures r.1.Success? ==>
      && r.1.value == PostReply(PostedMessage, body.value.serviceName, body.value.isExisting, body.value.timestamp)
      && r.0.Some?
      && |r.0.value| == |Opened(stored)|
      && r.0.value[0].name == Opened(stored)[0].name
      && r.0.value[0].rows == Opened(stored)[0].rows + [TextRow(NewRow(body.value.serviceName))]
      && r.0.value[1..] == Opened(stored)[1..]
  {
    if body.None? then (stored, Failure(WriteError, 500))
    else
      var wb := Opened(stored);
      if |wb| == 0 then (stored, Failure(WriteError, 500))
      else if !writeSucceeds then (stored, Failure(WriteError, 500))
      else
        var req := body.value;
        var sheet := wb[0].(rows := wb[0].rows + [TextRow(NewRow(req.serviceName))]);
        (Some([sheet] + wb[1..]), Success(PostReply(PostedMessage, req.serviceName, req.isExisting, req.timestamp)))
  }

  /** Posting to a file that cannot be read leaves exactly the header row and the new row. */
  lemma PostCreatesHeader(body: UpdateRequest)
    ensures var (file, resp) := Post(None, Some(body), true);
      && resp.Success?
      && file == Some([Sheet(SheetName, [TextRow(Header), TextRow(NewRow(body.serviceName))])])
  {
    var added := TextRow(NewRow(body.serviceName));
    var file := Post(None, Some(body), true).0;
    assert file.value[0].rows == [TextRow(Header)] + [added];
    assert file.value[0].name == SheetName;
    assert |file.value| == 1;
    assert [TextRow(Header)] + [added] == [TextRow(Header), added];
    assert file.value[0] == Sheet(SheetName, [TextRow(Header), added]);
    assert file.value == [file.value[0]];
  }

  /** Whether a row holds any value; rows without one are skipped by row iteration. */
  predicate HasValues(row: Row) {
    exists c | 0 <= c < |row| :: row[c].Some?
  }

  /** Whether column `c` of `row` enters its record: the cell has a value and the column a non-empty header. */
  predicate Contributes(headers: Row, row: Row, c: int) {
    0 <= c < |row| && row[c].Some? && c < |headers| && Truthy(headers[c])
  }

  /** The record for one data row: each contributing cell assigns its text to its header's key, left to right. */
  function RecordOf(headers: Row, row: Row): (r: Record)
    ensures KeysDistinct(r)
    ensures forall k :: k in Keys(r) <==> exists c | Contributes(headers, row, c) :: headers[c].value == k
    decreases |row|
  {
    if |row| == 0 then []
    else
      var c := |row| - 1;
      var prefix := RecordOf(headers, row[..c]);
      assert forall c' | 0 <= c' < c :: Contributes(headers, row[..c], c') == Contributes(headers, row, c');
      if Contributes(headers, row, c) then
        PutKeepsDistinct(prefix, headers[c].value, row[c].value);
        Put(prefix, headers[c].value, row[c].value)
      else prefix
  }

  /** A key's value is the text of the last contributing column under that header. */
  lemma {:induction false} RecordOfLookup(headers: Row, row: Row, c: nat)
    requires Contributes(headers, row, c)
    requires forall c' | c < c' < |row| :: !(Contributes(headers, row, c') && headers[c'].value == headers[c].value)
    ensures Lookup(RecordOf(headers, row), headers[c].value) == Some(row[c].value)
    decreases |row|
  {
    var last := |row| - 1;
    var prefix := RecordOf(headers, row[..last]);
    if c == last {
      PutLookup(prefix, headers[c].value, row[c].value);
    } else {
      assert Contributes(headers, row[..last], c);
      RecordOfLookup(headers, row[..last], c);
      if Contributes(headers, row, last) {
        PutLookup(prefix, headers[last].value, row[last].value);
      }
    }
  }

  /** The last column of a row is applied on top of the record of the columns before it. */
  lemma RecordOfLast(headers: Row, row: Row)
    requires |row| > 0
    ensures RecordOf(headers, row)
      == if Contributes(headers, row, |row| - 1)
         then Put(RecordOf(headers, row[..|row| - 1]), headers[|row| - 1].value, row[|row| - 1].value)
         else RecordOf(headers, row[..|row| - 1])
  {
  }

  /** The rows of `rows` that hold a value, in order. */
  function NonEmptyRows(rows: seq<Row>): (r: seq<Row>)
    ensures |r| <= |rows|
    ensures forall row :: row in r <==> row in rows && HasValues(row)
    ensures IsSubsequence(r, rows)
  {
    if |rows| == 0 then []
    else
      var rest := NonEmptyRows(rows[1..]);
      assert rows == [rows[0]] + rows[1..];
      if HasValues(rows[0]) then
        assert ([rows[0]] + rest)[1..] == rest;
        [rows[0]] + rest
      else
        rest
  }

  /** One record per row, in order, all keyed by the same header row. */
  function RecordsOf(headers: Row, rows: seq<Row>): (rs: seq<Record>)
    ensures |rs| == |rows|
    ensures forall i | 0 <= i < |rows| :: rs[i] == RecordOf(headers, rows[i])
  {
    seq(|rows|, i requires 0 <= i < |rows| => RecordOf(headers, rows[i]))
  }

  lemma RecordsOfAppend(headers: Row, rows: seq<Row>, row: Row)
    ensures RecordsOf(headers, rows + [row]) == RecordsOf(headers, rows) + [RecordOf(headers, row)]
  {
    var a := RecordsOf(headers, rows + [row]);
    var b := RecordsOf(headers, rows) + [RecordOf(headers, row)];
    forall i | 0 <= i < |a| ensures a[i] == b[i] {
      assert (rows + [row])[i] == if i < |rows| then rows[i] else row;
    }
  }

  /** GET's records for a worksheet: one per non-empty row after the first, keyed by the first row. */
  function SheetRecords(sheet: Sheet): (r: seq<Record>)
    ensures |sheet.rows| <= 1 ==> r == []
    ensures |sheet.rows| > 0 ==>
      forall rec | rec in r :: exists row | row in sheet.rows[1..] && HasValues(row) :: rec == RecordOf(sheet.rows[0], row)
  {
    if |sheet.rows| == 0 then []
    else
      var data := NonEmptyRows(sheet.rows[1..]);
      var r := RecordsOf(sheet.rows[0], data);
      assert forall rec | rec in r :: exists row | row in sheet.rows[1..] && HasValues(row) :: rec == RecordOf(sheet.rows[0], row) by {
        forall rec | rec in r
          ensures exists row | row in sheet.rows[1..] && HasValues(row) :: rec == RecordOf(sheet.rows[0], row)
        {
          var i :| 0 <= i < |r| && r[i] == rec;
          assert data[i] in data;
        }
      }
      r
  }

  /** GET: read failure is a 500; a workbook without worksheets yields no records. */
  function Get(stored: Option<Workbook>): (r: Response<seq<Record>>)
    ensures r.Failure? <==> stored.None?
    ensures r.Failure? ==> r == Failure(ReadError, 500)
    ensures stored == Some([]) ==> r == Success([])
    ensures r.Success? && |stored.value| > 0 && |stored.value[0].rows| == 0 ==> r.value == []
    ensures r.Success? && |stored.value| > 0 && |stored.value[0].rows| > 0 ==>
      r.value == RecordsOf(stored.value[0].rows[0], NonEmptyRows(stored.value[0].rows[1..]))
    ensures r.Success? && |stored.value| > 0 && |stored.value[0].rows| > 0 ==>
      forall rec | rec in r.value :: exists row | row in stored.value[0].rows[1..] && HasValues(row) ::
        rec == RecordOf(stored.value[0].rows[0], row)
  {
    if stored.None? then Failure(ReadError, 500)
    else if |stored.value| == 0 then Success([])
    else Success(SheetRecords(stored.value[0]))
  }

  lemma {:induction false} NonEmptyRowsAppend(rows: seq<Row>, row: Row)
    ensures NonEmptyRows(rows + [row]) == NonEmptyRows(rows) + (if HasValues(row) then [row] else [])
    decreases |rows|
  {
    if |rows| == 0 {
      assert NonEmptyRows([row][1..]) == [];
    } else {
      assert (rows + [row])[1..] == rows[1..] + [row];
      NonEmptyRowsAppend(rows[1..], row);
    }
  }

  /**
   * GET after a successful POST returns the records it returned before, followed
   * by the record of the appended row, provided the first worksheet already has
   * its header row.
   */
  lemma GetAfterPost(stored: Workbook, body: UpdateRequest)
    requires |stored| > 0 && |stored[0].rows| > 0
    ensures var (file, resp) := Post(Some(stored), Some(body), true);
      && resp.Success?
      && Get(Some(stored)).Success? && Get(file).Success?
      && Get(file).value
         == Get(Some(stored)).value + [RecordOf(stored[0].rows[0], TextRow(NewRow(body.serviceName)))]
  {
    var added := TextRow(NewRow(body.serviceName));
    var file := Post(Some(stored), Some(body), true).0;
    assert file.value[0] == stored[0].(rows := stored[0].rows + [added]);
    assert added[0].Some?;
    SheetRecordsAppend(stored[0], added);
  }

  /** Appending a row with values below the header adds its record after the others. */
  lemma SheetRecordsAppend(sheet: Sheet, row: Row)
    requires |sheet.rows| > 0 && HasValues(row)
    ensures SheetRecords(sheet.(rows := sheet.rows + [row]))
      == SheetRecords(sheet) + [RecordOf(sheet.rows[0], row)]
  {
    var rows := sheet.rows;
    assert (rows + [row])[1..] == rows[1..] + [row];
    assert (rows + [row])[0] == rows[0];
    NonEmptyRowsAppend(rows[1..], row);
    RecordsOfAppend(rows[0], NonEmptyRows(rows[1..]), row);
  }

  /** The record of a new row read back under the created header: API name set, every other named column empty. */
  lemma NewRowRecord(serviceName: Option<string>)
    ensures var rec := RecordOf(TextRow(Header), TextRow(NewRow(serviceName)));
      && Lookup(rec, "Api Name") == Some(if Truthy(serviceName) then serviceName.value else "")
      && (forall i | 1 <= i < |Header| && i != ApiNameColumn :: Lookup(rec, Header[i]) == Some(""))
      && Lookup(rec, "") == None
  {
    HeaderShape();
    var h := TextRow(Header);
    var row := TextRow(NewRow(serviceName));
    forall i | 1 <= i < |Header|
      ensures Lookup(RecordOf(h, row), Header[i]) == Some(NewRow(serviceName)[i])
    {
      assert Contributes(h, row, i);
      RecordOfLookup(h, row, i);
    }
    assert !Truthy(h[0]);
  }

  /** A sheet holding a header row and one row with values yields exactly that row's record. */
  lemma SingleRowRecords(name: string, headers: Row, row: Row)
    requires HasValues(row)
    ensures SheetRecords(Sheet(name, [headers, row])) == [RecordOf(headers, row)]
  {
    assert [headers, row][1..] == [row];
    assert NonEmptyRows([row]) == [row] by {
      assert NonEmptyRows([row][1..]) == [];
    }
  }

  /** A first POST on an unreadable file, then GET: exactly one record, that of the new row. */
  lemma CreateThenGet(body: UpdateRequest)
    ensures var (file, _) := Post(None, Some(body), true);
      Get(file) == Success([RecordOf(TextRow(Header), TextRow(NewRow(body.serviceName)))])
  {
    var added := TextRow(NewRow(body.serviceName));
    assert added[0].Some?;
    PostCreatesHeader(body);
    SingleRowRecords(SheetName, TextRow(Header), added);
  }
}

=== FILE: selector.dfy ===
/**
 * The service picker of `src/components/slides/ServiceSelector.tsx` once its
 * fetch has resolved: the search filter, the current selection and the confirm
 * button.
 */
module Selector {
  import opened Base
  import opened Text
  import opened Directory

  /** What the picker holds after loading: the fetched list, the search box and the selection. */
  datatype SelectorState = SelectorState(services: seq<Service>, query: string, selected: Option<Service>)

  /** The state right after a successful fetch: empty search, nothing selected. */
  function Loaded(services: seq<Service>): (st: SelectorState)
    ensures Visible(st) == services
    ensures Confirm(st) == None
  {
    SelectorState(services, "", None)
  }

  /**
   * The list the picker shows. A query that is blank after trimming shows every
   * service; otherwise the untrimmed query filters by name or description.
   */
  function Visible(st: SelectorState): (r: seq<Service>)
    ensures Trim(st.query) == "" ==> r == st.services
    ensures Trim(st.query) != "" ==> forall x :: x in r <==> x in st.services && Matches(x, st.query)
    ensures IsSubsequence(r, st.services)
    ensures Trim(st.query) != "" ==> r == FilterServices(st.services, st.query)
  {
    if Trim(st.query) == "" then
      IsSubsequenceRefl(st.services);
      st.services
    else
      FilterIsSubsequence(st.services, st.query);
      FilterServices(st.services, st.query)
  }

  /** Typing in the search box replaces the query and keeps the selection. */
  function SetQuery(st: SelectorState, query: string): (st': SelectorState)
    ensures st'.query == query && st'.services == st.services && st'.selected == st.selected
  {
    st.(query := query)
  }

  /** Clicking a service selects it, replacing any earlier selection. */
  function Choose(st: SelectorState, svc: Service): (st': SelectorState)
    ensures st'.selected == Some(svc)
    ensures st'.services == st.services && st'.query == st.query
  {
    st.(selected := Some(svc))
  }

  /** The confirm button: reports the selected service, or nothing when none is selected. */
  function Confirm(st: SelectorState): (r: Option<Service>)
    ensures r.Some? <==> st.selected.Some?
    ensures r.Some? ==> r.value == st.selected.value
  {
    st.selected
  }

  /** The last service chosen is the one confirmed, whatever was chosen before. */
  lemma ConfirmReportsLastChoice(st: SelectorState, first: Service, second: Service, query: string)
    ensures Confirm(Choose(SetQuery(Choose(st, first), query), second)) == Some(second)
    ensures Confirm(SetQuery(Choose(st, first), query)) == Some(first)
  {
  }

  /** A service whose description starts with the query, ignoring case, matches it. */
  lemma DescriptionPrefixMatches(svc: Service, query: string, prefix: string, rest: string)
    requires prefix != "" && svc.description == Some(prefix + rest)
    requires ToLower(prefix) == ToLower(query)
    ensures Matches(svc, query)
  {
    var d := svc.description.value;
    ToLowerAppend(prefix, rest);
    assert ToLower(d)[0..|query|] == ToLower(query);
    assert OccursAt(ToLower(d), ToLower(query), 0);
    ContainsIff(ToLower(d), ToLower(query));
  }

  /** A query holding a tab never matches a service whose texts have no tab. */
  lemma TabNeverMatches(svc: Service, query: string)
    requires '\t' in query && '\t' !in svc.name
    requires svc.description.Some? ==> '\t' !in svc.description.value
    ensures !Matches(svc, query)
  {
    var k :| 0 <= k < |query| && query[k] == '\t';
    assert ToLower(query)[k] == '\t';
    LowerLacks(svc.name, '\t');
    ContainsHasChar(ToLower(svc.name), ToLower(query), '\t');
    if svc.description.Some? {
      LowerLacks(svc.description.value, '\t');
      ContainsHasChar(ToLower(svc.description.value), ToLower(query), '\t');
    }
  }

  /** The APM service is found by "apm" through its description's leading "APM". */
  lemma ApmFound(svc: Service)
    requires svc.description == Some("APM service for application monitoring")
    ensures Matches(svc, "apm")
  {
    var d := svc.description.value;
    ApmDescriptionStart(d);
    ApmLowersAlike();
    assert d[..3] + d[3..] == d;
    DescriptionPrefixMatches(svc, "apm", d[..3], d[3..]);
  }

  lemma ApmDescriptionStart(d: string)
    requires d == "APM service for application monitoring"
    ensures d[..3] == "APM"
  {
    assert d[0] == 'A' && d[1] == 'P' && d[2] == 'M';
  }

  lemma ApmLowersAlike()
    ensures ToLower("APM") == ToLower("apm")
  {
  }

  lemma TabbedApmHidden(svc: Service)
    requires svc.name == "Application Performance Monitoring"
    requires svc.description == Some("APM service for application monitoring")
    ensures !Matches(svc, "\tapm")
  {
    assert "\tapm"[0] == '\t';
    NoTabInApmName();
    NoTabInApmDescription();
    TabNeverMatches(svc, "\tapm");
  }

  lemma NoTabInApmName()
    ensures '\t' !in "Application Performance Monitoring"
  {
  }

  lemma NoTabInApmDescription()
    ensures '\t' !in "APM service for application monitoring"
  {
  }

  /**
   * Only the blank test trims: a query typed with a leading tab is matched as
   * typed, so "\tapm" hides the APM service that "apm" finds.
   */
  lemma UntrimmedQueryMatchesAsTyped(svc: Service)
    requires svc.name == "Application Performance Monitoring"
    requires svc.description == Some("APM service for application monitoring")
    ensures Trim("\tapm") == "apm"
    ensures Matches(svc, "apm")
    ensures !Matches(svc, "\tapm")
  {
    assert SkipLeading("\tapm", 0) == 1;
    ApmFound(svc);
    TabbedApmHidden(svc);
  }

  /** A whitespace-only query shows the whole list here, while the directory lookup filters with it. */
  lemma BlankQueryShowsAll(services: seq<Service>, query: string)
    requires query != "" && AllSpace(query)
    ensures Visible(SelectorState(services, query, None)) == services
    ensures GetServices(Some(query)) == FilterServices(Fixture, query)
  {
  }
}

=== FILE: slides.dfy ===
/**
 * The wizard's static question graph: the slide and option records and the
 * constant table keyed by slide id.
 */
module SlideTable {
  import opened Base

  /** The four action tags an option may carry. */
  datatype Action = Proceed | Navigate | UpdateSpreadsheet | LookupServices

  datatype SlideOption = SlideOption(caption: string, value: string, action: Action, nextSlide: Option<string>)

  datatype Slide = Slide(id: string, title: string, prompt: string, options: seq<SlideOption>)

  /** The entry slide used when the host supplies no initial slide. */
  const DefaultSlide: string := "dynatraceOnboarding"

  /** The static table of slides, loaded once and never mutated. */
  const Slides: map<string, Slide> := map[
    "dynatraceOnboarding" := Slide(
      "dynatraceOnboarding",
      "Dynatrace Service Onboarding",
      "Is the Dynatrace service onboarded in PagerDuty?",
      [ SlideOption("Yes", "yes", Proceed, None),
        SlideOption("No", "no", Navigate, Some("technicalServiceCheck")) ]),
    "technicalServiceCheck" := Slide(
      "technicalServiceCheck",
      "Technical Service Check",
      "Does the technical service exist in PagerDuty?",
      [ SlideOption("Yes", "yes", LookupServices, None),
        SlideOption("No", "no", UpdateSpreadsheet, None) ]),
    "onboardingSteps" := Slide(
      "onboardingSteps",
      "Dynatrace Service Onboarding Steps",
      "Proceed with onboarding steps for the Dynatrace service.",
      [ SlideOption("Start Onboarding Process", "start", Proceed, None) ])
  ]

  /** An option is consistent with a table when its target is present exactly for `Navigate` and resolves. */
  predicate OptionWellFormed(table: map<string, Slide>, o: SlideOption) {
    && (o.action == Navigate <==> o.nextSlide.Some?)
    && (o.nextSlide.Some? ==> o.nextSlide.value in table)
  }

  /** Option values on one slide are pairwise distinct. */
  predicate DistinctValues(opts: seq<SlideOption>) {
    forall i, j | 0 <= i < j < |opts| :: opts[i].value != opts[j].value
  }

  predicate SlideWellFormed(table: map<string, Slide>, key: string) requires key in table {
    var s := table[key];
    && s.id == key
    && |s.options| > 0
    && DistinctValues(s.options)
    && forall i | 0 <= i < |s.options| :: OptionWellFormed(table, s.options[i])
  }

  /** The load-time validation the table is meant to satisfy. */
  predicate TableWellFormed(table: map<string, Slide>) {
    forall key | key in table :: SlideWellFormed(table, key)
  }

  /**
   * The shipped table is well formed: ids match keys, every slide offers at least one
   * option with distinct values, `navigate` targets resolve, other actions carry no
   * target, and the default entry slide is present.
   */
  lemma SlidesWellFormed()
    ensures TableWellFormed(Slides)
    ensures DefaultSlide in Slides
  {
    forall key | key in Slides ensures SlideWellFormed(Slides, key) {
      assert key == "dynatraceOnboarding" || key == "technicalServiceCheck" || key == "onboardingSteps";
      EntrySlideWellFormed();
      CheckSlideWellFormed();
      StepsSlideWellFormed();
    }
  }

  lemma EntrySlideWellFormed()
    ensures "dynatraceOnboarding" in Slides && SlideWellFormed(Slides, "dynatraceOnboarding")
  {
  }

  lemma CheckSlideWellFormed()
    ensures "technicalServiceCheck" in Slides && SlideWellFormed(Slides, "technicalServiceCheck")
  {
  }

  lemma StepsSlideWellFormed()
    ensures "onboardingSteps" in Slides && SlideWellFormed(Slides, "onboardingSteps")
  {
  }

  /**
   * The concrete branches of the shipped graph: on the entry slide "No" navigates to
   * the technical-service check, where "Yes" looks services up and "No" asks for a
   * name to write to the spreadsheet.
   */
  lemma SlidesShape()
    ensures Slides.Keys == {"dynatraceOnboarding", "technicalServiceCheck", "onboardingSteps"}
    ensures Slides[DefaultSlide].options[1].value == "no"
    ensures Slides[DefaultSlide].options[1].action == Navigate
    ensures Slides[DefaultSlide].options[1].nextSlide == Some("technicalServiceCheck")
    ensures Slides["technicalServiceCheck"].options[0].action == LookupServices
    ensures Slides["technicalServiceCheck"].options[1].action == UpdateSpreadsheet
  {
  }
}

=== FILE: text.dfy ===
/**
 * String helpers standing in for the JavaScript built-ins the source calls:
 * `String.prototype.trim`, `toLowerCase`, `includes` and `Array.prototype.join`.
 * Case folding is ASCII only and whitespace is the six ASCII space characters.
 */
module Text {

  /** The whitespace set `trim` removes (ASCII part only). */
  predicate IsSpace(c: char) {
    c == ' ' || c == '\t' || c == '\n' || c == '\r' || c == '\U{B}' || c == '\U{C}'
  }

  predicate AllSpace(s: string) {
    forall k | 0 <= k < |s| :: IsSpace(s[k])
  }

  /** First index at or after `i` that is not whitespace (or |s|). */
  function SkipLeading(s: string, i: nat): (r: nat)
    requires i <= |s|
    ensures i <= r <= |s|
    ensures forall k | i <= k < r :: IsSpace(s[k])
    ensures r < |s| ==> !IsSpace(s[r])
    decreases |s| - i
  {
    if i < |s| && IsSpace(s[i]) then SkipLeading(s, i + 1) else i
  }

  /** Index just past the last non-whitespace character of `s[lo..j]` (or lo). */
  function SkipTrailing(s: string, lo: nat, j: nat): (r: nat)
    requires lo <= j <= |s|
    ensures lo <= r <= j
    ensures forall k | r <= k < j :: IsSpace(s[k])
    ensures r > lo ==> !IsSpace(s[r - 1])
    decreases j
  {
    if j > lo && IsSpace(s[j - 1]) then SkipTrailing(s, lo, j - 1) else j
  }

  /** `s.trim()`: the infix of `s` left once leading and trailing whitespace is removed. */
  function Trim(s: string): (r: string)
    ensures |r| <= |s|
    ensures r == "" <==> AllSpace(s)
    ensures r != "" ==> !IsSpace(r[0]) && !IsSpace(r[|r| - 1])
    ensures exists a, b | 0 <= a <= b <= |s| :: r == s[a..b] && AllSpace(s[..a]) && AllSpace(s[b..])
  {
    var a := SkipLeading(s, 0);
    var b := SkipTrailing(s, a, |s|);
    assert AllSpace(s[..a]) && AllSpace(s[b..]);
    s[a..b]
  }

  /** ASCII `toLowerCase` on one character. */
  function LowerChar(c: char): char {
    if 'A' <= c <= 'Z' then (c as int - 'A' as int + 'a' as int) as char else c
  }

  /** `s.toLowerCase()`, ASCII only. */
  function ToLower(s: string): (r: string)
    ensures |r| == |s|
    ensures forall k | 0 <= k < |s| :: r[k] == LowerChar(s[k])
  {
    seq(|s|, k requires 0 <= k < |s| => LowerChar(s[k]))
  }

  /** `needle[k..]` occurs in `hay` starting at index `i + k`, compared one character at a time. */
  predicate MatchesAt(hay: string, needle: string, i: nat, k: nat)
    decreases |needle| - k
  {
    k >= |needle| || (i + k < |hay| && hay[i + k] == needle[k] && MatchesAt(hay, needle, i, k + 1))
  }

  /** `needle` occurs in `hay` at some index `i` or later. */
  predicate ContainsFrom(hay: string, needle: string, i: nat)
    decreases |hay| - i
  {
    MatchesAt(hay, needle, i, 0) || (i < |hay| && ContainsFrom(hay, needle, i + 1))
  }

  /** `hay.includes(needle)`, computed by trying every start position. */
  predicate Contains(hay: string, needle: string) {
    ContainsFrom(hay, needle, 0)
  }

  /** Reference meaning of `includes`: `needle` is the slice of `hay` at index `i`. */
  ghost predicate OccursAt(hay: string, needle: string, i: int) {
    0 <= i && i + |needle| <= |hay| && hay[i..i + |needle|] == needle
  }

  lemma {:induction false} MatchesAtIff(hay: string, needle: string, i: nat, k: nat)
    requires k <= |needle|
    ensures MatchesAt(hay, needle, i, k) <==>
      (i + |needle| <= |hay| && hay[i + k..i + |needle|] == needle[k..]) || k == |needle|
    decreases |needle| - k
  {
    if k < |needle| {
      MatchesAtIff(hay, needle, i, k + 1);
      if i + |needle| <= |hay| {
        var a, b := hay[i + k..i + |needle|], needle[k..];
        assert a == [a[0]] + hay[i + k + 1..i + |needle|];
        assert b == [b[0]] + needle[k + 1..];
      }
    }
  }

  lemma {:induction false} ContainsFromIff(hay: string, needle: string, i: nat)
    requires i <= |hay|
    ensures ContainsFrom(hay, needle, i) <==> exists j :: i <= j && OccursAt(hay, needle, j)
    decreases |hay| - i
  {
    MatchesAtIff(hay, needle, i, 0);
    assert MatchesAt(hay, needle, i, 0) <==> OccursAt(hay, needle, i);
    if i < |hay| {
      ContainsFromIff(hay, needle, i + 1);
      if exists j :: i <= j && OccursAt(hay, needle, j) {
        var j :| i <= j && OccursAt(hay, needle, j);
        if j > i {
          assert i + 1 <= j;
        }
      }
    } else {
      if exists j :: i <= j && OccursAt(hay, needle, j) {
        var j :| i <= j && OccursAt(hay, needle, j);
        assert j == i;
      }
    }
  }

  /** `Contains` means what `includes` means: some index where `needle` starts. */
  lemma ContainsIff(hay: string, needle: string)
    ensures Contains(hay, needle) <==> exists i :: OccursAt(hay, needle, i)
  {
    ContainsFromIff(hay, needle, 0);
  }

  /** Lower-casing works character by character, so it distributes over concatenation. */
  lemma {:induction false} ToLowerAppend(a: string, b: string)
    ensures ToLower(a + b) == ToLower(a) + ToLower(b)
  {
    var l, r := ToLower(a + b), ToLower(a) + ToLower(b);
    assert |l| == |r|;
    forall k | 0 <= k < |l| ensures l[k] == r[k] {
      if k < |a| {
        assert (a + b)[k] == a[k];
      } else {
        assert (a + b)[k] == b[k - |a|];
      }
    }
  }

  /** A character absent from `w` (in both cases, for a letter) is absent from `ToLower(w)`. */
  lemma LowerLacks(w: string, c: char)
    requires c !in w
    requires 'a' <= c <= 'z' ==> (c as int - 'a' as int + 'A' as int) as char !in w
    ensures c !in ToLower(w)
  {
    var l := ToLower(w);
    forall k | 0 <= k < |l| ensures l[k] != c {
      assert w[k] in w;
    }
  }

  /** Every character of an included needle occurs in the haystack. */
  lemma ContainsHasChar(hay: string, needle: string, c: char)
    requires c in needle && c !in hay
    ensures !Contains(hay, needle)
  {
    ContainsIff(hay, needle);
    var k :| 0 <= k < |needle| && needle[k] == c;
    forall i | 0 <= i && i + |needle| <= |hay| ensures !OccursAt(hay, needle, i) {
      assert hay[i..i + |needle|][k] == hay[i + k];
      assert hay[i + k] in hay;
    }
  }

  /** An occurrence of a needle without the separator lies within one side of it. */
  lemma ContainsAcross(a: string, sep: char, b: string, needle: string)
    requires sep !in needle
    requires !Contains(a, needle) && !Contains(b, needle)
    ensures !Contains(a + [sep] + b, needle)
  {
    var s := a + [sep] + b;
    var n := |needle|;
    ContainsIff(a, needle);
    ContainsIff(b, needle);
    ContainsIff(s, needle);
    forall i | 0 <= i && i + n <= |s| ensures !OccursAt(s, needle, i) {
      if i + n <= |a| {
        assert s[i..i + n] == a[i..i + n];
        assert !OccursAt(a, needle, i);
      } else if i > |a| {
        assert s[i..i + n] == b[i - |a| - 1..i - |a| - 1 + n];
        assert !OccursAt(b, needle, i - |a| - 1);
      } else {
        assert s[i..i + n][|a| - i] == sep;
      }
    }
  }

  /** A space-free needle absent from every word is absent from the words joined by spaces, lower-cased. */
  lemma {:induction false} LowerJoinLacks(words: seq<string>, needle: string)
    requires needle != "" && ' ' !in needle
    requires forall i | 0 <= i < |words| :: !Contains(ToLower(words[i]), needle)
    ensures !Contains(ToLower(Join(words, " ")), needle)
  {
    if |words| == 0 {
      assert ToLower(Join(words, " ")) == "";
    } else if |words| >= 2 {
      LowerJoinLacks(words[1..], needle);
      ToLowerAppend(words[0] + " ", Join(words[1..], " "));
      ToLowerAppend(words[0], " ");
      assert ToLower(" ") == " ";
      ContainsAcross(ToLower(words[0]), ' ', ToLower(Join(words[1..], " ")), needle);
      assert ToLower(words[0]) + [' '] + ToLower(Join(words[1..], " ")) == ToLower(Join(words, " "));
    } else {
      assert words[0] in words;
    }
  }

  /** `parts.join(sep)`: no separator before the first part or after the last. */
  function Join(parts: seq<string>, sep: string): (r: string)
    ensures |parts| == 0 ==> r == ""
    ensures |parts| == 1 ==> r == parts[0]
    ensures |parts| >= 2 ==> r == parts[0] + sep + Join(parts[1..], sep)
  {
    if |parts| == 0 then ""
    else if |parts| == 1 then parts[0]
    else parts[0] + sep + Join(parts[1..], sep)
  }

  lemma JoinThen(parts: seq<string>, sep: string, t: string)
    requires |parts| >= 2
    ensures Join(parts, sep) + t == parts[0] + (sep + (Join(parts[1..], sep) + t))
  {
  }

  lemma JoinPair(parts: seq<string>, sep: string, first: string, rest: string)
    requires |parts| >= 2 && parts[0] == first && Join(parts[1..], sep) == rest
    ensures Join(parts, sep) == first + (sep + rest)
  {
  }
}

=== FILE: timeline.dfy ===
/**
 * The progress bar of `src/components/slides/TimelineProgress.tsx`: a fixed
 * number of steps, the current step derived from the slide id alone, and each
 * step and connector classified against it.
 */
module Timeline {
  import opened SlideTable

  /** The bar always shows this many steps. */
  const TotalSteps: nat := 3

  /** The step a slide id belongs to; ids the bar does not know count as the first step. */
  function CurrentStep(slideId: string): (k: nat)
    ensures 1 <= k <= TotalSteps
    ensures k == TotalSteps <==> slideId == "serviceSelection" || slideId == "spreadsheetUpdate"
    ensures slideId == "dynatraceOnboarding" ==> k == 1
    ensures slideId == "technicalServiceCheck" ==> k == 2
    ensures slideId !in {"dynatraceOnboarding", "technicalServiceCheck", "serviceSelection", "spreadsheetUpdate"} ==> k == 1
  {
    if slideId == "dynatraceOnboarding" then 1
    else if slideId == "technicalServiceCheck" then 2
    else if slideId == "serviceSelection" || slideId == "spreadsheetUpdate" then 3
    else 1
  }

  datatype StepStatus = Done | Active | Pending

  /** How step `k` (numbered from 1) is drawn when `current` is the current step. */
  function StatusOf(k: nat, current: nat): StepStatus {
    if k < current then Done else if k == current then Active else Pending
  }

  /** What the component renders: the "Step k of n" numbers, the step circles and the connectors between them. */
  datatype Progress = Progress(current: nat, total: nat, steps: seq<StepStatus>, connectorsDone: seq<bool>)

  /**
   * The component. The completed-slide list and the responses are accepted but
   * play no part in the result.
   */
  function Render(currentSlideId: string, completedSlides: seq<string>, responses: map<string, string>): (p: Progress)
    ensures p.current == CurrentStep(currentSlideId)
    ensures p.total == TotalSteps && |p.steps| == TotalSteps && |p.connectorsDone| == TotalSteps - 1
    ensures 1 <= p.current <= p.total
    ensures forall i | 0 <= i < |p.steps| :: p.steps[i].Done? <==> i + 1 < p.current
    ensures forall i | 0 <= i < |p.steps| :: p.steps[i].Active? <==> i + 1 == p.current
    ensures forall i | 0 <= i < |p.connectorsDone| :: p.connectorsDone[i] <==> p.steps[i].Done?
  {
    var current := CurrentStep(currentSlideId);
    Progress(
      current,
      TotalSteps,
      seq(TotalSteps, i requires 0 <= i < TotalSteps => StatusOf(i + 1, current)),
      seq(TotalSteps - 1, i requires 0 <= i < TotalSteps - 1 => i + 1 < current))
  }

  /** Exactly one step is active, and the completed steps are those before it. */
  lemma ExactlyOneActive(currentSlideId: string, completedSlides: seq<string>, responses: map<string, string>)
    ensures var p := Render(currentSlideId, completedSlides, responses);
      && (exists i | 0 <= i < |p.steps| :: p.steps[i].Active?)
      && (forall i, j | 0 <= i < |p.steps| && 0 <= j < |p.steps| && p.steps[i].Active? && p.steps[j].Active? :: i == j)
      && (forall i, j | 0 <= i < j < |p.steps| && p.steps[j].Done? :: p.steps[i].Done?)
  {
    var p := Render(currentSlideId, completedSlides, responses);
    assert p.steps[p.current - 1].Active?;
  }

  /** Only the slide id decides the bar. */
  lemma DependsOnlyOnSlide(id: string, c1: seq<string>, r1: map<string, string>, c2: seq<string>, r2: map<string, string>)
    ensures Render(id, c1, r1) == Render(id, c2, r2)
  {
  }

  /**
   * The ids that map to the last step are not slides of the table, so for every
   * slide the wizard can show the bar stops at step 1 or 2.
   */
  lemma TableNeverReachesLastStep(id: string)
    requires id in Slides
    ensures CurrentStep(id) < TotalSteps
  {
    SlidesShape();
  }
}
